=== FILE: README.md ===
# Luxe AI travel agent: the itinerary document compilers

This project models the part of the travel agent that turns a generated
itinerary into a PDF story, meaning the ordered list of ReportLab flowables
passed to `doc.build`. There are two such compilers, and both are modelled.

- **The line compiler** (`generate_pdf` and `create_stop_table` in `app.py`).
  It is a three-section state machine (normal, timeline, itinerary) that
  reads the model's free text line by line. It collects timeline rows into a
  table. It buffers the lines of one stop at a time and flushes each stop as
  a `[text | image]` panel. Outside both sections it renders the
  `TITLE:`/`OVERVIEW:`/`GETTING_THERE:`/`TRAVEL_TIPS:` lines.
  (`LineCompiler`, `LineCompilerLemmas`, `StopPanel`.)
- **The JSON composer** (`create_pdf` in `travel_agent_py.py`). It builds a
  fixed front matter, then one section per day and one group of blocks per
  stop. The pieces around it are modelled as well:
  - the budget's thousands grouping `{budget:,}` (`NumberFormat`);
  - the clean-up of the model's reply before `json.loads` (`ResponseCleanup`).

Shared vocabulary:

- `Story` holds the flowables as a `Block` datatype.
- `Text` holds Python's `strip`, `in`, `startswith`, `split` and `replace` on
  strings of code points.
- `Basics` holds `Option`, bytes, `FlatMap` and `Filter`.

Image services become parameters. The line compiler's image lookup is
`ImageOracle`, and the composer's is `ImageLookup`. Each is a function from
the query to `Option<Bytes>`, with every network or decoding failure already
folded into `None`. The destination, a global form field in `app.py`, is a
parameter too.

Three behaviours of the code are easy to misread:

- A day line does not close the open stop. The stop stays open and is
  flushed later, after the new day's heading (`DayLineDefersPanel`).
- `ITINERARY_END` flushes the buffer but does not clear it, so a second
  `ITINERARY_END` emits the same panel again
  (`ItineraryEndTwiceRepeatsPanel`).
- There is no end-of-stream flush, so the last stop before a missing
  `ITINERARY_END` is lost (`LastStopNeverFlushed`).

The timeline rows are also never reset. A second `TIMELINE_END` prints every
row collected so far, which the invariant `TablesAccumulate` records.

## Model

| member | source | states |
|---|---|---|
| Text.Strip | app.py:240 | `line.strip()` gives a string with no whitespace at either end that sits in the input padded only by whitespace |
| Text.StripPadded | app.py:240 | stripping whitespace-padded trimmed text gives back exactly that text, so `strip` is fully determined by its two promises |
| Text.StripTrimmed | travel_agent_py.py:179 | an already-stripped string is unchanged by `strip` |
| Text.StripEmptyIffBlank | app.py:240-241 | a stripped line is empty exactly when the raw line is all whitespace, which is when the loop skips it |
| Text.Find | app.py:279 | `find` returns the leftmost occurrence of the pattern, or nothing when the pattern does not occur anywhere |
| Text.FindFirstChar | app.py:280 | the first colon of a line is found right after the longest colon-free prefix |
| Text.Split | app.py:231 | `split('\n')` gives at least one piece, no piece contains the separator, and joining the pieces with it gives back the text |
| Text.Replace | app.py:178 | `replace` leaves a string without the pattern unchanged |
| Text.ReplaceFirst | app.py:178 | the first occurrence of the pattern is replaced and replacing starts over right after it; with the clause of `Replace` this fixes `replace` for every input |
| Text.ReplaceLeading | app.py:302 | a leading occurrence of the pattern is replaced and replacing continues on the rest |
| Text.ReplaceOnlyLeading | app.py:178 | a string that opens with the pattern and has no other occurrence of it loses exactly that opening |
| Text.ReplaceChar | travel_agent_py.py:314 | replacing a character by another keeps the length, rewrites exactly the occurrences and keeps every other character |
| StopPanel.PlaceNameOf | app.py:178 | the place name is stripped; for a `STOP:` line with no second "STOP:" it is the rest of the line, stripped |
| StopPanel.LineElements | app.py:176-189 | a `STOP:` line gives exactly the place field; `BEST TIME:` and `LOGISTICS:` lines give their field with the marker replaced away and the value not stripped; a `FOOD:` line gives a 5-point spacer and the "Nearby Eats" caption and drops its own text; a line with none of the four prefixes is printed unchanged |
| StopPanel.ColumnLength | app.py:176-189 | the text column has one element per buffered line plus one per `FOOD:` line |
| StopPanel.ColumnAppend | app.py:176-189 | the column of two line runs is the first run's column followed by the second's, so buffered lines keep their order |
| StopPanel.PanelNamesItsStop | app.py:172-194 | in a buffer as the loop keeps it, the panel's first element and the image query name the place on the buffer's first line |
| StopPanel.ImageQuery | app.py:193 | for a buffer as the loop keeps it, the image query is the destination, a space and the place named on the buffer's first line; for an empty buffer the place is empty |
| StopPanel.Flush | app.py:172-216 | the column has one element per buffered line plus one per `FOOD:` line; for a buffer as the loop keeps it, the panel opens with the place named on the first line and carries the image found for "destination place"; a 15-point spacer follows |
| StopPanel.FlushImageIndependent | app.py:196-204 | two lookups give flushes that differ only in the panel's image |
| LineCompiler.Classify | app.py:239-274 | a line is skipped exactly when it is blank; otherwise the four markers are tested by containment in their order, and a line with none of them is content: the stripped, non-empty line |
| LineCompiler.ParseRow | app.py:279-282 | a timeline line gives a row exactly when it contains a colon, and both halves of the row are stripped |
| LineCompiler.FlushIfOpen | app.py:272-273 | flushing emits nothing exactly when no stop is open, and a panel and spacer otherwise |
| LineCompiler.TimelineLine | app.py:278-282 | a timeline line adds a row exactly when it contains a colon and changes nothing else |
| LineCompiler.ItineraryLine | app.py:284-298 | an itinerary line keeps the section and the rows, only appends blocks, and keeps the buffer a single stop |
| LineCompiler.GeneralBlocks | app.py:300-312 | outside the sections a line gives one or two blocks: a line containing `TITLE:` gives one title paragraph, the line with every "TITLE:" removed and then stripped; an `OVERVIEW:` line gives only the "Trip Overview" header and drops its own text; `GETTING_THERE:` gives a 10-point spacer and "How to Reach <destination>"; `TRAVEL_TIPS:` gives a page break before the "Travel Tips" header, and is the only branch with a page break; a line with no field marker is printed as it is |
| LineCompiler.ContentStep | app.py:276-312 | a content line keeps the section, only appends blocks and adds at most one timeline row |
| LineCompiler.TimelineStartStep | app.py:244-248 | `TIMELINE_START`, in any section, appends the "Trip at a Glance" header and a spacer and switches to the timeline, keeping buffer and rows |
| LineCompiler.ItineraryStartStep | app.py:265-268 | `ITINERARY_START`, in any section, appends the "Detailed Visual Guide" header and switches to the itinerary, keeping buffer and rows |
| LineCompiler.Step | app.py:239-312 | one iteration only appends to the story, adds at most one timeline row, ignores blank lines, keeps the section on content lines and returns to normal on either end marker |
| LineCompiler.StepKeepsGood | app.py:239-312 | every iteration keeps the loop invariant: the buffer is one stop, every panel opens with its stop's name, and every timeline table is the header plus a prefix of the rows, each table extending the earlier ones |
| LineCompiler.Run | app.py:239-312 | the loop only appends blocks and rows, adds at most one row per line, and keeps the invariant |
| LineCompiler.Compile | app.py:230-314 | in the finished story every panel is named, and every timeline table starts with the ("Day", "Summary") header and extends every earlier one |
| LineCompilerLemmas.RunAppend | app.py:239 | running over two line runs is running over the first and then the second from where it stopped |
| LineCompilerLemmas.StoryGrowsWithInput | app.py:239-312 | the story and the rows for a prefix of the text are prefixes of those for the whole text |
| LineCompilerLemmas.RowSplitsAtFirstColon | app.py:280-282 | `split(":", 1)` splits at the first colon, and both halves are stripped |
| LineCompilerLemmas.TimelineRowStep | app.py:278-282 | a timeline line with a colon appends exactly the row split at its first colon, and nothing else changes |
| LineCompilerLemmas.TimelineNoColonStep | app.py:278-279 | a timeline line without a colon changes nothing |
| LineCompilerLemmas.TimelineEndStep | app.py:249-263 | `TIMELINE_END` emits the header and all rows so far as a table, then a page break, and keeps the rows and the buffer |
| LineCompilerLemmas.StopLineStep | app.py:290-295 | a `STOP:` line flushes the open stop, if any, and leaves a buffer holding only itself |
| LineCompilerLemmas.DayLineStep | app.py:285-288 | a day line appends its heading and a rule and leaves the open stop open |
| LineCompilerLemmas.DetailLineStep | app.py:296-298 | any other itinerary line joins the open stop, or is dropped when no stop is open |
| LineCompilerLemmas.ItineraryEndStep | app.py:269-274 | `ITINERARY_END` flushes the open stop, keeps the buffer and returns to the normal section |
| LineCompilerLemmas.ItineraryEndTwiceRepeatsPanel | app.py:269-274 | two `ITINERARY_END` lines emit the same stop's panel twice; the image is the same only because a lookup answers a query the same way every time (see "Left out") |
| LineCompilerLemmas.DayLineDefersPanel | app.py:285-295 | a stop, a day line and a stop emit the day heading before the first stop's panel, and the second stop stays open |
| LineCompilerLemmas.DetailLinesEmitNothing | app.py:284-298 | inside the itinerary, blank and detail lines emit nothing and keep the section; they only extend an open buffer and never open one |
| LineCompilerLemmas.LastStopNeverFlushed | app.py:239-314 | when the last `STOP:` line is followed only by detail lines, the story ends with what that line flushed, and the last stop's panel never appears |
| LineCompilerLemmas.TitleLineBlocks | app.py:301-302 | a line that opens with its only `TITLE:` becomes one title paragraph holding the rest of the line, stripped |
| LineCompilerLemmas.TitleInLine | app.py:301-302 | the marker may sit anywhere: with a single `TITLE:` in the line, the title is the text before it joined to the text after it, stripped |
| LineCompilerLemmas.NonMarkersKeepSection | app.py:244-274 | lines that are not markers never change the section |
| LineCompilerLemmas.SectionFollowsLastMarker | app.py:244-274 | after any input the section is the one the last marker line switched to, whatever came before it |
| LineCompilerLemmas.StepUpToImages | app.py:239-312 | with two image lookups, one iteration keeps two states equal up to panel images |
| LineCompilerLemmas.RunUpToImages | app.py:239-312 | with two image lookups, the loop gives states equal up to panel images |
| LineCompilerLemmas.CompileImageIndependent | app.py:194-204 | image availability changes nothing in the story but the panels' images, in particular not its length |
| NumberFormat.Decimal | travel_agent_py.py:235 | `str(n)` is a non-empty run of decimal digits with no leading zero |
| NumberFormat.DecimalRoundTrip | travel_agent_py.py:235 | reading the digits of `str(n)` back gives `n` |
| NumberFormat.DecimalInjective | travel_agent_py.py:235 | distinct numbers print differently |
| NumberFormat.IntToString | travel_agent_py.py:259 | `str(i)` is non-empty and starts with a minus sign exactly when `i` is negative |
| NumberFormat.IntToStringRoundTrip | travel_agent_py.py:259 | `str(i)` reads back as `i` |
| NumberFormat.Group | travel_agent_py.py:236 | grouping n digits inserts (n - 1) / 3 commas and keeps the leading digit |
| NumberFormat.GroupUncomma | travel_agent_py.py:236 | deleting the commas from the grouped digits gives the digits back |
| NumberFormat.GroupCommaPositions | travel_agent_py.py:236 | the commas sit exactly at every fourth place counted from the right |
| NumberFormat.CommasAfterPrefix | travel_agent_py.py:236 | text put before a grouped run keeps its commas at every fourth place from the right |
| NumberFormat.Grouped | travel_agent_py.py:236 | `{i:,}` starts with a minus sign exactly when `i` is negative; right after the sign comes a digit, and from there on the commas sit exactly at every fourth place from the right |
| NumberFormat.GroupedUncomma | travel_agent_py.py:236 | deleting the commas from `{i:,}` gives `str(i)` |
| NumberFormat.BudgetText | travel_agent_py.py:236 | the budget cell is a dollar sign followed by the amount, which is `str(budget)` once its commas are deleted, whose first character after the dollar and minus signs is a digit, and whose commas from there on sit exactly at every fourth place from the right |
| ResponseCleanup.DropFences | travel_agent_py.py:172-177 | the fence checks only cut a contiguous piece out of the reply |
| ResponseCleanup.CleanResponse | travel_agent_py.py:169-179 | the text handed to `json.loads` is a stripped, contiguous piece of the reply and no longer than it |
| ResponseCleanup.DropJsonFence | travel_agent_py.py:172-177 | a "```json" fence is removed and the plain-fence test that follows does not fire, then the closing fence is removed |
| ResponseCleanup.DropPlainFence | travel_agent_py.py:174-177 | a plain "```" fence and the closing fence are removed |
| ResponseCleanup.FencedJsonRoundTrip | travel_agent_py.py:169-179 | a reply fenced as a JSON code block yields exactly its body |
| ResponseCleanup.FencedRoundTrip | travel_agent_py.py:169-179 | a reply fenced as a plain code block yields exactly its body |
| ResponseCleanup.UnfencedIsStripped | travel_agent_py.py:169-179 | a reply without fences is only stripped |
| JsonComposer.MapsQuery | travel_agent_py.py:314 | the maps query keeps its length, turns every space into a plus sign, changes nothing else and contains no space |
| JsonComposer.Heading | travel_agent_py.py:282 | the stop heading is the alarm clock and a space, the time of day, a colon and a space, then the title; when the time of day has no colon, the heading's first colon comes right after it |
| JsonComposer.HeadingReadsBack | travel_agent_py.py:282 | when the times of day have no colon, splitting a heading at its first colon gives back the time and the title, so two stops share a heading exactly when they share both |
| JsonComposer.ImageBlocks | travel_agent_py.py:289-299 | the picture pair is there exactly when the lookup found an image, opens with that image, and consists only of image parts |
| JsonComposer.Offer | travel_agent_py.py:311-312 | a food option starts with the dish and ends with the restaurant's name |
| JsonComposer.Details | travel_agent_py.py:304-314 | a stop has six detail fields captioned, in order, description, best time, getting there, veg option, non-veg option and maps search; the first three carry the stop's own text, each food field starts with the dish and ends with the restaurant, and the last is the search text with spaces turned into plus signs |
| JsonComposer.DetailsReadBack | travel_agent_py.py:304-314 | equal details mean equal description, best time and logistics, and equal search text when neither holds a plus sign |
| JsonComposer.StopBlocks | travel_agent_py.py:280-316 | a stop gives a spacer, its heading, the picture pair when the lookup finds an image, the six details in order and a closing spacer: 11 blocks with an image and 9 without, with no page break |
| JsonComposer.DayBlocks | travel_agent_py.py:277-318 | a day opens with its "Day n" title and ends with a page break |
| JsonComposer.DayLabelReadsBack | travel_agent_py.py:259 | `f"Day {day}"` is "Day " and a number that reads back as the day, so distinct days get distinct labels |
| JsonComposer.ThemeRows | travel_agent_py.py:257-259 | the day-by-day table has one row per overview entry, in input order |
| JsonComposer.FrontMatter | travel_agent_py.py:228-274 | the front matter is eight blocks long |
| JsonComposer.OverviewRows | travel_agent_py.py:233-237 | the trip table's rows are destination, duration and budget; the duration is a number and " Days", and both numbers read back as the inputs once the budget's dollar sign and commas are removed |
| JsonComposer.CreatePdf | travel_agent_py.py:228-318 | the story holds one page break more than there are days, and its title-style paragraphs are the trip title and then "Day n" for each detailed day, in input order |
| JsonComposer.TitleFirst | travel_agent_py.py:228-229 | the story opens with the title behind its aeroplane, then the overview text |
| JsonComposer.TripRows | travel_agent_py.py:233-237 | the trip table has exactly the destination, duration and budget rows; the budget is `$` and an amount that is `str(budget)` without its commas, starting with a digit and grouped by commas at every fourth place from the right |
| JsonComposer.TripTable | travel_agent_py.py:233-251 | the fourth block is the trip table |
| JsonComposer.DailyTable | travel_agent_py.py:255-274 | the day-by-day table is the header followed by one row per overview entry in order, and a page break follows it |
| JsonComposer.StopsHaveNoPageBreak | travel_agent_py.py:280-316 | stops never break the page |
| JsonComposer.DayHasOnePageBreak | travel_agent_py.py:277-318 | each day holds exactly one page break |
| JsonComposer.DaysPageBreaks | travel_agent_py.py:277-318 | the detailed part holds one page break per day |
| JsonComposer.FrontPageBreaks | travel_agent_py.py:228-274 | the front matter holds exactly one page break |
| JsonComposer.StopTexts | travel_agent_py.py:280-316 | a stop contributes its heading and no title |
| JsonComposer.StopsTexts | travel_agent_py.py:280-316 | the headings of a run of stops are their headings in input order, once each |
| JsonComposer.StopHeadingsInOrder | travel_agent_py.py:277-316 | within a day the stop headings appear once each, in input order, and the day's only title is its label |
| JsonComposer.DayTitlesInOrder | travel_agent_py.py:277-278 | the day titles are the days' labels in input order, once each |
| JsonComposer.FrontTitles | travel_agent_py.py:228-274 | the front matter's only title is the trip title |
| JsonComposer.DaysAppend | travel_agent_py.py:277-318 | the story for two runs of days is the first run's story followed by the second's |
| JsonComposer.ImageBlocksDropped | travel_agent_py.py:289-299 | the picture pair consists only of image parts |
| JsonComposer.StopImageOptional | travel_agent_py.py:284-301 | removing the picture pair from a stop gives the stop as built without an image |
| JsonComposer.StopsImageOptional | travel_agent_py.py:280-316 | the same for a run of stops |
| JsonComposer.DayImageOptional | travel_agent_py.py:277-318 | the same for a day |
| JsonComposer.DaysImageOptional | travel_agent_py.py:277-318 | the same for a run of days |
| JsonComposer.FrontKept | travel_agent_py.py:228-274 | the front matter holds no image part |
| JsonComposer.ImagesAreOptional | travel_agent_py.py:228-318 | an image failure changes nothing but the picture pairs: dropping them gives the story built with no images, which has none to drop |

## Left out

- Rendering is not modelled. ReportLab lays out the story, and fonts, colours, paragraph styles, table styles, column widths, margins, the page frame and footer (`add_page_design`) and `KeepTogether` are presentation. A block keeps only its kind, its text and its children.
- The HTML markup and emoji of `create_stop_table`'s captions are a `Label` per caption, not the literal markup text. The `<b>…</b>` captions of the composer's detail paragraphs are also labels. So is the link markup around the maps query.
- The `<hr>` paragraph under a day heading is the `Rule` block.
- Spacer heights are real numbers in points. Python's floating-point rounding of `0.3*inch` and similar is not modelled.
- Image handling is an oracle, so it is not modelled:
  - the Unsplash search and the HTTP download (`fetch_image`, `fetch_unsplash_image`, `download_image`);
  - image decoding, `convert`, `thumbnail` and JPEG re-encoding;
  - the aspect-ratio scaling in `create_stop_table`.
  A picture is the downloaded bytes. An exception inside the composer's image `try` block is folded into a `None` answer. This is sound because both appends come after every call that can raise.
  A lookup is a function, so it answers the same query the same way every time. The source runs a fresh search and download on every flush (`app.py` line 194), so two lookups for the same place can differ there. `ItineraryEndTwiceRepeatsPanel`'s identical image rests on this, and `CompileImageIndependent` shows that the rest of the story does not depend on the answers.
- An unreadable image in `app.py` is not modelled. There, `ReportLabImage` on bytes that are not an image raises outside any handler. The oracle answers only with bytes that the image constructor accepts.
- Paragraph markup errors are not modelled. ReportLab's `Paragraph` parses its text as markup when it is built and raises `ValueError` on markup it cannot parse. `app.py` hands generated lines to it verbatim (lines 189 and 312). `travel_agent_py.py` line 314 puts the search query inside a single-quoted `href`, so a query with an apostrophe ends the attribute early. In the source either raise aborts `generate_pdf` or `create_pdf`; the model's `Para` and `Field` blocks hold any text and never fail.
- The model takes the parsed `Itinerary` as its input. `json.loads` and the key lookups into the parsed reply are therefore out of scope, and a missing key, which raises `KeyError` in the source, has no counterpart.
- The OpenAI calls (`generate_itinerary_text`, `generate_itinerary`), the Streamlit UI, `st.write`/`st.warning` notices, SMTP e-mail and file naming are I/O. They are not modelled.
- `current_day` in `generate_pdf` is read only on the line that sets it, where it equals `line`. The model uses the line directly.
- `doc.build` is the final I/O step and is not modelled. `Compile` and `CreatePdf` return the story handed to it.

=== FILE: basics.dfy ===
/** Small shared vocabulary: optional values and raw bytes. */
module Basics {

  /** A value that may be absent; the image lookups of both programs answer with one. */
  datatype Option<+T> = None | Some(value: T)

  /** One octet of an image file. */
  newtype byte = x: int | 0 <= x < 256

  /** The raw content of a downloaded image. */
  type Bytes = seq<byte>

  /** Each element's image under `f`, concatenated in order. */
  function FlatMap<A, B>(f: A -> seq<B>, xs: seq<A>): seq<B>
  {
    if xs == [] then [] else f(xs[0]) + FlatMap(f, xs[1..])
  }

  lemma {:induction false} FlatMapAppend<A, B>(f: A -> seq<B>, xs: seq<A>, ys: seq<A>)
    ensures FlatMap(f, xs + ys) == FlatMap(f, xs) + FlatMap(f, ys)
    decreases |xs|
  {
    if xs == [] {
      assert xs + ys == ys;
    } else {
      assert (xs + ys)[0] == xs[0];
      assert (xs + ys)[1..] == xs[1..] + ys;
      FlatMapAppend(f, xs[1..], ys);
    }
  }

  /** The elements of `xs` that satisfy `p`, in order. */
  function Filter<A>(p: A -> bool, xs: seq<A>): (r: seq<A>)
    ensures |r| <= |xs|
    ensures forall k :: 0 <= k < |r| ==> p(r[k])
  {
    if xs == [] then [] else (if p(xs[0]) then [xs[0]] else []) + Filter(p, xs[1..])
  }

  lemma {:induction false} FilterAppend<A>(p: A -> bool, xs: seq<A>, ys: seq<A>)
    ensures Filter(p, xs + ys) == Filter(p, xs) + Filter(p, ys)
    decreases |xs|
  {
    if xs == [] {
      assert xs + ys == ys;
    } else {
      assert (xs + ys)[0] == xs[0];
      assert (xs + ys)[1..] == xs[1..] + ys;
      FilterAppend(p, xs[1..], ys);
    }
  }

  /** Filtering keeps a sequence whose every element passes. */
  lemma {:induction false} FilterAll<A>(p: A -> bool, xs: seq<A>)
    requires forall k :: 0 <= k < |xs| ==> p(xs[k])
    ensures Filter(p, xs) == xs
    decreases |xs|
  {
    if xs != [] {
      FilterAll(p, xs[1..]);
    }
  }
}

=== FILE: json_composer.dfy ===
/** The structured composer (`create_pdf` in travel_agent_py.py): a parsed
    itinerary becomes a fixed front matter (title, overview, trip table,
    day-by-day table) followed by one section per day and one group of
    blocks per stop. */
module JsonComposer {
  import opened Basics
  import opened Text
  import opened Story
  import opened NumberFormat

  /** A restaurant suggestion. */
  datatype Food = Food(name: string, dish: string)

  /** One stop of a day, as the JSON reply describes it. */
  datatype Stop = Stop(
    timeOfDay: string,
    title: string,
    description: string,
    bestTime: string,
    logistics: string,
    veg: Food,
    nonVeg: Food,
    searchQuery: string)

  datatype DayPlan = DayPlan(day: int, stops: seq<Stop>)

  /** One entry of the `daily_overview` list. */
  datatype DayTheme = DayTheme(day: int, theme: string)

  /** The parsed reply; `title` and `overview` come from `trip_summary`. */
  datatype Itinerary = Itinerary(
    title: string,
    overview: string,
    dailyOverview: seq<DayTheme>,
    detailed: seq<DayPlan>)

  /** Image search followed by download: a query in, image bytes or nothing
      out. Every failure along the way is folded into `None`. */
  type ImageLookup = string -> Option<Bytes>

  /** The lookup that never finds an image. */
  function NoImage(query: string): Option<Bytes> {
    None
  }

  function TitleText(title: string): string {
    "\U{2708}\U{FE0F} " + title
  }

  const GlanceHeading := "\U{1F4C5} Trip at a Glance"

  const ThemeHeader := Row("Day", "Theme")

  /** `f"Day {day}"`: the word "Day", a space and a number. */
  function DayLabel(day: int): string {
    "Day " + IntToString(day)
  }

  /** The number after "Day " reads back as the day, so distinct days get
      distinct labels. */
  lemma DayLabelReadsBack(day: int)
    ensures |DayLabel(day)| > 4 && DayLabel(day)[..4] == "Day "
    ensures IntText(DayLabel(day)[4..]) && ReadInt(DayLabel(day)[4..]) == day
  {
    assert DayLabel(day)[4..] == IntToString(day);
    IntToStringRoundTrip(day);
  }

  /** The stop heading `f"⏰ {time_of_day}: {title}"`: the clock, the time
      of day, a colon and a space, then the title. When the time of day has
      no colon, the first colon of the heading is the one right after it. */
  function Heading(s: Stop): (r: string)
    ensures StartsWith(r, "\U{23F0} ") && EndsWith(r, s.title)
    ensures |r| == 4 + |s.timeOfDay| + |s.title|
    ensures r[2..2 + |s.timeOfDay|] == s.timeOfDay && r[2 + |s.timeOfDay|..] == ": " + s.title
    ensures ':' !in s.timeOfDay ==> Find(r, ":") == Some(2 + |s.timeOfDay|)
  {
    var front := "\U{23F0} " + s.timeOfDay;
    var r := front + [':'] + (" " + s.title);
    assert r == "\U{23F0} " + s.timeOfDay + ": " + s.title;
    assert r[..2] == "\U{23F0} " && r[|r| - |s.title|..] == s.title;
    assert r[2..2 + |s.timeOfDay|] == s.timeOfDay && r[2 + |s.timeOfDay|..] == ": " + s.title;
    if ':' !in s.timeOfDay then
      assert ':' !in "\U{23F0} ";
      FindFirstChar(front, ':', " " + s.title);
      r
    else
      r
  }

  /** Splitting a heading at its first colon gives back the time of day and,
      after the colon and a space, the title; so two stops whose times have no
      colon share a heading only when they share both. */
  lemma HeadingReadsBack(s: Stop, t: Stop)
    requires ':' !in s.timeOfDay && ':' !in t.timeOfDay
    ensures var r, i := Heading(s), 2 + |s.timeOfDay|;
      Find(r, ":") == Some(i) && r[2..i] == s.timeOfDay && r[i + 2..] == s.title
    ensures Heading(s) == Heading(t) <==> s.timeOfDay == t.timeOfDay && s.title == t.title
  {
    var r, i := Heading(s), 2 + |s.timeOfDay|;
    assert r[i + 2..] == (": " + s.title)[2..];
    if Heading(s) == Heading(t) {
      assert Find(r, ":") == Some(2 + |t.timeOfDay|);
      assert r[i + 2..] == (": " + t.title)[2..];
    }
  }

  /** `f"{dish} at {name}"`: the dish first, the restaurant last. */
  function Offer(f: Food): (r: string)
    ensures StartsWith(r, f.dish) && EndsWith(r, f.name)
  {
    var r := f.dish + " at " + f.name;
    assert r[..|f.dish|] == f.dish && r[|r| - |f.name|..] == f.name;
    r
  }

  /** The search query as it goes into the maps link: every space becomes a
      plus sign and nothing else changes. */
  function MapsQuery(query: string): (r: string)
    ensures |r| == |query|
    ensures forall k :: 0 <= k < |query| ==> r[k] == (if query[k] == ' ' then '+' else query[k])
    ensures forall k :: 0 <= k < |r| ==> r[k] != ' '
  {
    ReplaceChar(query, ' ', '+');
    Replace(query, " ", "+")
  }

  /** The six detail paragraphs of a stop, in the order the code emits them:
      description, best time, logistics, the two food offers and the maps
      query of the search text. */
  function Details(s: Stop): (r: seq<Block>)
    ensures |r| == 6 && forall k :: 0 <= k < 6 ==> r[k].Field?
    ensures [r[0].caption, r[1].caption, r[2].caption, r[3].caption, r[4].caption, r[5].caption]
      == [Description, BestTime, GettingThere, VegOption, NonVegOption, MapsSearch]
    ensures r[0].value == s.description && r[1].value == s.bestTime && r[2].value == s.logistics
    ensures StartsWith(r[3].value, s.veg.dish) && EndsWith(r[3].value, s.veg.name)
    ensures StartsWith(r[4].value, s.nonVeg.dish) && EndsWith(r[4].value, s.nonVeg.name)
    ensures r[5].value == MapsQuery(s.searchQuery)
  {
    [ Field(Description, s.description),
      Field(BestTime, s.bestTime),
      Field(GettingThere, s.logistics),
      Field(VegOption, Offer(s.veg)),
      Field(NonVegOption, Offer(s.nonVeg)),
      Field(MapsSearch, MapsQuery(s.searchQuery)) ]
  }

  /** Two stops with the same details agree on description, best time and
      logistics, and, when neither search text holds a plus sign, on the
      search text too: the maps query loses only the difference between a
      space and a plus. */
  lemma DetailsReadBack(s: Stop, t: Stop)
    requires Details(s) == Details(t)
    ensures s.description == t.description && s.bestTime == t.bestTime && s.logistics == t.logistics
    ensures '+' !in s.searchQuery && '+' !in t.searchQuery ==> s.searchQuery == t.searchQuery
  {
    var a, b := s.searchQuery, t.searchQuery;
    assert MapsQuery(a) == MapsQuery(b);
    if '+' !in a && '+' !in b {
      forall k | 0 <= k < |a|
        ensures a[k] == b[k]
      {
        assert MapsQuery(a)[k] == MapsQuery(b)[k];
      }
    }
  }

  /** The picture and its spacer when the lookup found an image; nothing
      otherwise. Every block it gives is an image part. */
  function ImageBlocks(image: Option<Bytes>): (r: seq<Block>)
    ensures r == [] <==> image.None?
    ensures image.Some? ==> r[0] == Picture(image.value)
    ensures forall k :: 0 <= k < |r| ==> !NotImagePart(r[k])
  {
    if image.Some? then [Picture(image.value), Spacer(0.1 * Inch)] else []
  }

  function StopHead(s: Stop): seq<Block> {
    [Spacer(0.2 * Inch), Para(HeaderStyle, Heading(s))]
  }

  function StopTail(s: Stop): seq<Block> {
    Details(s) + [Spacer(0.2 * Inch)]
  }

  /** The blocks of one stop: a spacer, the heading, the optional image pair,
      the six details and a closing spacer. */
  function StopBlocks(s: Stop, lookup: ImageLookup): (r: seq<Block>)
    ensures |r| == (if lookup(s.searchQuery).Some? then 11 else 9)
    ensures r[0] == Spacer(0.2 * Inch) && r[1] == Para(HeaderStyle, Heading(s))
    ensures r[|r| - 7..|r| - 1] == Details(s) && r[|r| - 1] == Spacer(0.2 * Inch)
    ensures forall k :: 0 <= k < |r| ==> !r[k].PageBreak?
  {
    StopHead(s) + ImageBlocks(lookup(s.searchQuery)) + StopTail(s)
  }

  lemma StopParts(s: Stop, lookup: ImageLookup)
    ensures StopBlocks(s, lookup) == StopHead(s) + (ImageBlocks(lookup(s.searchQuery)) + StopTail(s))
  {
  }

  function StopsBlocks(stops: seq<Stop>, lookup: ImageLookup): seq<Block> {
    FlatMap((s: Stop) => StopBlocks(s, lookup), stops)
  }

  /** One day: its title, its stops in order, then a page break. */
  function DayBlocks(d: DayPlan, lookup: ImageLookup): (r: seq<Block>)
    ensures |r| >= 2 && r[0] == Para(TitleStyle, DayLabel(d.day)) && r[|r| - 1] == PageBreak
  {
    [Para(TitleStyle, DayLabel(d.day))] + StopsBlocks(d.stops, lookup) + [PageBreak]
  }

  function DaysBlocks(days: seq<DayPlan>, lookup: ImageLookup): seq<Block> {
    FlatMap((d: DayPlan) => DayBlocks(d, lookup), days)
  }

  /** The rows of the day-by-day table after its header: one per overview
      entry, in input order. */
  function ThemeRows(ds: seq<DayTheme>): (r: seq<Row>)
    ensures |r| == |ds|
    ensures forall k :: 0 <= k < |ds| ==> r[k] == Row(DayLabel(ds[k].day), ds[k].theme)
  {
    if ds == [] then []
    else ThemeRows(ds[..|ds| - 1]) + [Row(DayLabel(ds[|ds| - 1].day), ds[|ds| - 1].theme)]
  }

  /** The trip table: destination, duration and budget, in that order. The
      duration cell is a number and " Days", and both numbers read back as
      the inputs once the budget's dollar sign and commas are gone. */
  function OverviewRows(destination: string, days: int, budget: int): (r: seq<Row>)
    ensures |r| == 3 && r[0] == Row("Destination", destination)
    ensures r[1].left == "Duration" && r[2].left == "Budget"
    ensures |r[1].right| > 5 && EndsWith(r[1].right, " Days")
    ensures var n := r[1].right[..|r[1].right| - 5]; IntText(n) && ReadInt(n) == days
    ensures |r[2].right| >= 2 && IntText(Uncomma(r[2].right[1..])) && ReadInt(Uncomma(r[2].right[1..])) == budget
  {
    var duration := IntToString(days) + " Days";
    assert duration[..|duration| - 5] == IntToString(days);
    assert duration[|duration| - 5..] == " Days";
    IntToStringRoundTrip(days);
    IntToStringRoundTrip(budget);
    [Row("Destination", destination), Row("Duration", duration), Row("Budget", BudgetText(budget))]
  }

  /** Everything before the first day: title, overview, trip table, the
      day-by-day table and the page break after it. */
  function FrontMatter(it: Itinerary, trip: seq<Row>): (r: seq<Block>)
    ensures |r| == 8
  {
    [ Para(TitleStyle, TitleText(it.title)),
      Para(BodyStyle, it.overview),
      Spacer(0.3 * Inch),
      Table(trip),
      Spacer(0.3 * Inch),
      Para(HeaderStyle, GlanceHeading),
      Table([ThemeHeader] + ThemeRows(it.dailyOverview)),
      PageBreak ]
  }

  /** The whole story `create_pdf` hands to the document builder: the front
      matter, then the days. It holds one page break more than there are
      days, and its title-style paragraphs are the trip title and then one
      "Day n" per detailed day, in input order. */
  function CreatePdf(it: Itinerary, destination: string, days: int, budget: int, lookup: ImageLookup): (story: seq<Block>)
    ensures CountPageBreaks(story) == 1 + |it.detailed|
    ensures Texts(TitleStyle, story) == [TitleText(it.title)] + DayLabels(it.detailed)
  {
    var front := FrontMatter(it, OverviewRows(destination, days, budget));
    var rest := DaysBlocks(it.detailed, lookup);
    CountPageBreaksAppend(front, rest);
    DaysPageBreaks(it.detailed, lookup);
    FrontPageBreaks(it, OverviewRows(destination, days, budget));
    TextsAppend(TitleStyle, front, rest);
    DayTitlesInOrder(it.detailed, lookup);
    FrontTitles(it, OverviewRows(destination, days, budget));
    front + rest
  }

  lemma StoryParts(it: Itinerary, destination: string, days: int, budget: int, lookup: ImageLookup)
    ensures CreatePdf(it, destination, days, budget, lookup)
            == FrontMatter(it, OverviewRows(destination, days, budget)) + DaysBlocks(it.detailed, lookup)
  {
  }

  /** The story opens with the title, behind its aeroplane, and the overview
      text. */
  lemma TitleFirst(it: Itinerary, destination: string, days: int, budget: int, lookup: ImageLookup)
    ensures var story := CreatePdf(it, destination, days, budget, lookup);
            story[0] == Para(TitleStyle, TitleText(it.title)) && story[1] == Para(BodyStyle, it.overview)
  {
    var trip := OverviewRows(destination, days, budget);
    StoryFront(it, destination, days, budget, lookup, 0);
    StoryFront(it, destination, days, budget, lookup, 1);
    FrontOpening(it, trip);
  }

  /** The first eight blocks of the story are the front matter's. */
  lemma StoryFront(it: Itinerary, destination: string, days: int, budget: int, lookup: ImageLookup, k: int)
    requires 0 <= k < 8
    ensures CreatePdf(it, destination, days, budget, lookup)[k] == FrontMatter(it, OverviewRows(destination, days, budget))[k]
  {
    StoryParts(it, destination, days, budget, lookup);
  }

  lemma FrontOpening(it: Itinerary, trip: seq<Row>)
    ensures FrontMatter(it, trip)[0] == Para(TitleStyle, TitleText(it.title))
    ensures FrontMatter(it, trip)[1] == Para(BodyStyle, it.overview)
  {
  }

  /** The trip table holds exactly three rows: the destination, the duration
      in days and the budget, a dollar sign before the amount with its
      thousands grouped by commas. */
  lemma TripRows(destination: string, days: int, budget: int)
    ensures var rows := OverviewRows(destination, days, budget);
            && |rows| == 3
            && rows[0] == Row("Destination", destination)
            && rows[1] == Row("Duration", IntToString(days) + " Days")
            && rows[2].left == "Budget" && |rows[2].right| >= 2 && rows[2].right[0] == '$'
            && Uncomma(rows[2].right[1..]) == IntToString(budget)
            && CommasFrom(rows[2].right, if budget < 0 then 2 else 1)
            && |rows[2].right| > (if budget < 0 then 2 else 1) && IsDigit(rows[2].right[if budget < 0 then 2 else 1])
  {
  }

  /** The fourth block of the story is the trip table. */
  lemma TripTable(it: Itinerary, destination: string, days: int, budget: int, lookup: ImageLookup)
    ensures CreatePdf(it, destination, days, budget, lookup)[3] == Table(OverviewRows(destination, days, budget))
  {
    StoryFront(it, destination, days, budget, lookup, 3);
    FrontTripTable(it, OverviewRows(destination, days, budget));
  }

  lemma FrontTripTable(it: Itinerary, trip: seq<Row>)
    ensures FrontMatter(it, trip)[3] == Table(trip)
  {
  }

  /** The day-by-day table: the fixed header, then one row per overview
      entry in input order, then a page break. */
  lemma DailyTable(it: Itinerary, destination: string, days: int, budget: int, lookup: ImageLookup)
    ensures var story := CreatePdf(it, destination, days, budget, lookup);
            && story[6].Table? && |story[6].rows| == |it.dailyOverview| + 1
            && story[6].rows[0] == ThemeHeader
            && (forall k :: 0 <= k < |it.dailyOverview| ==>
                  story[6].rows[k + 1] == Row(DayLabel(it.dailyOverview[k].day), it.dailyOverview[k].theme))
            && story[7] == PageBreak
  {
    var story := CreatePdf(it, destination, days, budget, lookup);
    StoryFront(it, destination, days, budget, lookup, 6);
    StoryFront(it, destination, days, budget, lookup, 7);
    FrontDailyTable(it, OverviewRows(destination, days, budget));
    ThemeTable(it.dailyOverview);
    assert story[6] == Table([ThemeHeader] + ThemeRows(it.dailyOverview));
  }

  lemma ThemeTable(ds: seq<DayTheme>)
    ensures var rows := [ThemeHeader] + ThemeRows(ds);
            && |rows| == |ds| + 1 && rows[0] == ThemeHeader
            && forall k :: 0 <= k < |ds| ==> rows[k + 1] == Row(DayLabel(ds[k].day), ds[k].theme)
  {
    var rows := [ThemeHeader] + ThemeRows(ds);
    forall k | 0 <= k < |ds|
      ensures rows[k + 1] == Row(DayLabel(ds[k].day), ds[k].theme)
    {
      assert rows[k + 1] == ThemeRows(ds)[k];
    }
  }

  lemma FrontDailyTable(it: Itinerary, trip: seq<Row>)
    ensures FrontMatter(it, trip)[6] == Table([ThemeHeader] + ThemeRows(it.dailyOverview))
    ensures FrontMatter(it, trip)[7] == PageBreak
  {
  }

  // ------------------------------------------------------------ page breaks

  lemma {:induction false} StopsHaveNoPageBreak(stops: seq<Stop>, lookup: ImageLookup)
    ensures CountPageBreaks(StopsBlocks(stops, lookup)) == 0
    decreases |stops|
  {
    if stops != [] {
      StopsHaveNoPageBreak(stops[1..], lookup);
      CountPageBreaksNone(StopBlocks(stops[0], lookup));
      CountPageBreaksAppend(StopBlocks(stops[0], lookup), StopsBlocks(stops[1..], lookup));
    }
  }

  /** Each day ends its own page and holds no other page break. */
  lemma DayHasOnePageBreak(d: DayPlan, lookup: ImageLookup)
    ensures CountPageBreaks(DayBlocks(d, lookup)) == 1
  {
    var body := StopsBlocks(d.stops, lookup);
    StopsHaveNoPageBreak(d.stops, lookup);
    CountPageBreaksAppend([Para(TitleStyle, DayLabel(d.day))] + body, [PageBreak]);
    CountPageBreaksAppend([Para(TitleStyle, DayLabel(d.day))], body);
  }

  lemma {:induction false} DaysPageBreaks(days: seq<DayPlan>, lookup: ImageLookup)
    ensures CountPageBreaks(DaysBlocks(days, lookup)) == |days|
    decreases |days|
  {
    if days != [] {
      DaysPageBreaks(days[1..], lookup);
      DayHasOnePageBreak(days[0], lookup);
      CountPageBreaksAppend(DayBlocks(days[0], lookup), DaysBlocks(days[1..], lookup));
    }
  }

  /** One page break after the day-by-day table and one after each day, and
      no others. */
  lemma FrontPageBreaks(it: Itinerary, trip: seq<Row>)
    ensures CountPageBreaks(FrontMatter(it, trip)) == 1
  {
    var front := FrontMatter(it, trip);
    assert front == front[..7] + [PageBreak];
    CountPageBreaksNone(front[..7]);
    CountPageBreaksAppend(front[..7], [PageBreak]);
  }

  // ---------------------------------------------------------------- ordering

  /** The stops' headings, in order. */
  function Headings(stops: seq<Stop>): (r: seq<string>)
    ensures |r| == |stops| && forall k :: 0 <= k < |stops| ==> r[k] == Heading(stops[k])
  {
    if stops == [] then [] else [Heading(stops[0])] + Headings(stops[1..])
  }

  /** The days' "Day n" labels, in order. */
  function DayLabels(days: seq<DayPlan>): (r: seq<string>)
    ensures |r| == |days| && forall k :: 0 <= k < |days| ==> r[k] == DayLabel(days[k].day)
  {
    if days == [] then [] else [DayLabel(days[0].day)] + DayLabels(days[1..])
  }

  lemma StopHeadTexts(s: Stop)
    ensures Texts(TitleStyle, StopHead(s)) == []
    ensures Texts(HeaderStyle, StopHead(s)) == [Heading(s)]
  {
    TextsAppend(HeaderStyle, [Spacer(0.2 * Inch)], [Para(HeaderStyle, Heading(s))]);
    assert StopHead(s) == [Spacer(0.2 * Inch)] + [Para(HeaderStyle, Heading(s))];
    TextsNone(TitleStyle, StopHead(s));
  }

  lemma StopRestTexts(s: Stop, image: Option<Bytes>, st: Style)
    ensures Texts(st, ImageBlocks(image) + StopTail(s)) == []
  {
    TextsNone(st, ImageBlocks(image));
    TextsNone(st, StopTail(s));
    TextsAppend(st, ImageBlocks(image), StopTail(s));
  }

  /** A stop contributes its heading and no title. */
  lemma StopTexts(s: Stop, lookup: ImageLookup)
    ensures Texts(TitleStyle, StopBlocks(s, lookup)) == []
    ensures Texts(HeaderStyle, StopBlocks(s, lookup)) == [Heading(s)]
  {
    var rest := ImageBlocks(lookup(s.searchQuery)) + StopTail(s);
    StopParts(s, lookup);
    TextsAppend(TitleStyle, StopHead(s), rest);
    TextsAppend(HeaderStyle, StopHead(s), rest);
    StopHeadTexts(s);
    StopRestTexts(s, lookup(s.searchQuery), TitleStyle);
    StopRestTexts(s, lookup(s.searchQuery), HeaderStyle);
  }

  /** The headings of a run of stops are the stops' headings in order, and
      no stop contributes a title. */
  lemma {:induction false} StopsTexts(stops: seq<Stop>, lookup: ImageLookup)
    ensures Texts(TitleStyle, StopsBlocks(stops, lookup)) == []
    ensures Texts(HeaderStyle, StopsBlocks(stops, lookup)) == Headings(stops)
    decreases |stops|
  {
    if stops != [] {
      StopsTexts(stops[1..], lookup);
      StopTexts(stops[0], lookup);
      TextsAppend(TitleStyle, StopBlocks(stops[0], lookup), StopsBlocks(stops[1..], lookup));
      TextsAppend(HeaderStyle, StopBlocks(stops[0], lookup), StopsBlocks(stops[1..], lookup));
    }
  }

  lemma DayParts(d: DayPlan, lookup: ImageLookup)
    ensures DayBlocks(d, lookup) == [Para(TitleStyle, DayLabel(d.day))] + StopsBlocks(d.stops, lookup) + [PageBreak]
  {
  }

  /** Within a day, the stop headings appear once each, in input order, and
      the day's only title is its label. */
  lemma StopHeadingsInOrder(d: DayPlan, lookup: ImageLookup)
    ensures Texts(HeaderStyle, DayBlocks(d, lookup)) == Headings(d.stops)
    ensures Texts(TitleStyle, DayBlocks(d, lookup)) == [DayLabel(d.day)]
  {
    var title := [Para(TitleStyle, DayLabel(d.day))];
    var body := StopsBlocks(d.stops, lookup);
    DayParts(d, lookup);
    StopsTexts(d.stops, lookup);
    TextsAppend(HeaderStyle, title + body, [PageBreak]);
    TextsAppend(HeaderStyle, title, body);
    TextsAppend(TitleStyle, title + body, [PageBreak]);
    TextsAppend(TitleStyle, title, body);
  }

  /** The day titles of the detailed part are the days' labels, once each,
      in input order. */
  lemma {:induction false} DayTitlesInOrder(days: seq<DayPlan>, lookup: ImageLookup)
    ensures Texts(TitleStyle, DaysBlocks(days, lookup)) == DayLabels(days)
    decreases |days|
  {
    if days != [] {
      DayTitlesInOrder(days[1..], lookup);
      StopHeadingsInOrder(days[0], lookup);
      TextsAppend(TitleStyle, DayBlocks(days[0], lookup), DaysBlocks(days[1..], lookup));
    }
  }

  lemma FrontTitles(it: Itinerary, trip: seq<Row>)
    ensures Texts(TitleStyle, FrontMatter(it, trip)) == [TitleText(it.title)]
  {
    var front := FrontMatter(it, trip);
    assert front == [front[0]] + front[1..];
    TextsAppend(TitleStyle, [front[0]], front[1..]);
    TextsNone(TitleStyle, front[1..]);
  }

  /** Days keep their order: the story for two runs of days is the story for
      the first followed by the story for the second. */
  lemma DaysAppend(xs: seq<DayPlan>, ys: seq<DayPlan>, lookup: ImageLookup)
    ensures DaysBlocks(xs + ys, lookup) == DaysBlocks(xs, lookup) + DaysBlocks(ys, lookup)
  {
    FlatMapAppend((d: DayPlan) => DayBlocks(d, lookup), xs, ys);
  }

  // ------------------------------------------------------------------ images

  /** Keeps every block except pictures and the 0.1-inch spacers that follow
      them. */
  predicate NotImagePart(b: Block) {
    !b.Picture? && b != Spacer(0.1 * Inch)
  }

  function DropImages(bs: seq<Block>): seq<Block> {
    Filter(NotImagePart, bs)
  }

  lemma ImageBlocksDropped(image: Option<Bytes>)
    ensures DropImages(ImageBlocks(image)) == []
  {
    if image.Some? {
      var bs := ImageBlocks(image);
      assert bs == [bs[0]] + [bs[1]];
      FilterAppend(NotImagePart, [bs[0]], [bs[1]]);
      assert [bs[0]][1..] == [] && [bs[1]][1..] == [];
    }
  }

  lemma StopTextKept(s: Stop)
    ensures DropImages(StopHead(s)) == StopHead(s)
    ensures DropImages(StopTail(s)) == StopTail(s)
  {
    FilterAll(NotImagePart, StopHead(s));
    FilterAll(NotImagePart, StopTail(s));
  }

  /** A missing image removes exactly the picture and its spacer. */
  lemma StopImageOptional(s: Stop, lookup: ImageLookup)
    ensures DropImages(StopBlocks(s, lookup)) == StopBlocks(s, NoImage)
  {
    var image := ImageBlocks(lookup(s.searchQuery));
    FilterAppend(NotImagePart, StopHead(s) + image, StopTail(s));
    FilterAppend(NotImagePart, StopHead(s), image);
    ImageBlocksDropped(lookup(s.searchQuery));
    StopTextKept(s);
    assert StopBlocks(s, NoImage) == StopHead(s) + [] + StopTail(s);
  }

  lemma {:induction false} StopsImageOptional(stops: seq<Stop>, lookup: ImageLookup)
    ensures DropImages(StopsBlocks(stops, lookup)) == StopsBlocks(stops, NoImage)
    decreases |stops|
  {
    if stops != [] {
      StopsImageOptional(stops[1..], lookup);
      StopImageOptional(stops[0], lookup);
      FilterAppend(NotImagePart, StopBlocks(stops[0], lookup), StopsBlocks(stops[1..], lookup));
    }
  }

  lemma DayImageOptional(d: DayPlan, lookup: ImageLookup)
    ensures DropImages(DayBlocks(d, lookup)) == DayBlocks(d, NoImage)
  {
    var title := [Para(TitleStyle, DayLabel(d.day))];
    StopsImageOptional(d.stops, lookup);
    FilterAppend(NotImagePart, title + StopsBlocks(d.stops, lookup), [PageBreak]);
    FilterAppend(NotImagePart, title, StopsBlocks(d.stops, lookup));
    FilterAll(NotImagePart, title);
    FilterAll(NotImagePart, [PageBreak]);
  }

  lemma {:induction false} DaysImageOptional(days: seq<DayPlan>, lookup: ImageLookup)
    ensures DropImages(DaysBlocks(days, lookup)) == DaysBlocks(days, NoImage)
    decreases |days|
  {
    if days != [] {
      DaysImageOptional(days[1..], lookup);
      DayImageOptional(days[0], lookup);
      FilterAppend(NotImagePart, DayBlocks(days[0], lookup), DaysBlocks(days[1..], lookup));
    }
  }

  lemma FrontKept(it: Itinerary, trip: seq<Row>)
    ensures DropImages(FrontMatter(it, trip)) == FrontMatter(it, trip)
  {
    var front := FrontMatter(it, trip);
    assert forall k :: 0 <= k < |front| ==> !front[k].Picture?;
    assert forall k :: 0 <= k < |front| ==> front[k] != Spacer(0.1 * Inch);
    FilterAll(NotImagePart, front);
  }

  /** An image failure never changes anything but the image pairs: dropping
      pictures and their spacers from the story gives the story built with
      no images at all, which has none to drop. */
  lemma ImagesAreOptional(it: Itinerary, destination: string, days: int, budget: int, lookup: ImageLookup)
    ensures DropImages(CreatePdf(it, destination, days, budget, lookup)) == CreatePdf(it, destination, days, budget, NoImage)
    ensures DropImages(CreatePdf(it, destination, days, budget, NoImage)) == CreatePdf(it, destination, days, budget, NoImage)
  {
    var front := FrontMatter(it, OverviewRows(destination, days, budget));
    StoryParts(it, destination, days, budget, lookup);
    StoryParts(it, destination, days, budget, NoImage);
    FrontKept(it, OverviewRows(destination, days, budget));
    FilterAppend(NotImagePart, front, DaysBlocks(it.detailed, lookup));
    DaysImageOptional(it.detailed, lookup);
    FilterAppend(NotImagePart, front, DaysBlocks(it.detailed, NoImage));
    DaysImageOptional(it.detailed, NoImage);
  }
}

=== FILE: line_compiler.dfy ===
/** The line-oriented itinerary compiler of app.py (`generate_pdf`): a
    three-state machine over the trimmed, non-blank lines of the generated
    text, which collects timeline rows, buffers the lines of one stop at a
    time, and appends blocks to the story as it goes. The destination (a
    form field read as a global in the source) and the image lookup are
    parameters. */
module LineCompiler {
  import opened Basics
  import opened Text
  import opened Story
  import opened StopPanel

  const TimelineStartMarker := "TIMELINE_START"
  const TimelineEndMarker := "TIMELINE_END"
  const ItineraryStartMarker := "ITINERARY_START"
  const ItineraryEndMarker := "ITINERARY_END"
  const DayMarker := "Day"

  /** The blocks TIMELINE_START emits: the section header and a 10-point spacer. */
  const TimelineOpening := [Para(HeaderStyle, "Trip at a Glance"), Spacer(10.0)]

  /** The block ITINERARY_START emits: the section header. */
  const ItineraryOpening := [Para(HeaderStyle, "Detailed Visual Guide")]

  /** The header row placed above the collected timeline rows. */
  const TimelineHeader := Row("Day", "Summary")

  datatype Section = Normal | Timeline | Itinerary

  /** What a raw input line is before the current section is consulted. */
  datatype LineKind =
    | Blank
    | TimelineStart
    | TimelineEnd
    | ItineraryStart
    | ItineraryEnd
    | Content(line: string)

  /** The loop's variables: the section, the open stop's lines, the timeline
      rows collected so far and the story built so far. */
  datatype State = State(section: Section, buffer: seq<string>, rows: seq<Row>, blocks: seq<Block>)

  const Initial := State(Normal, [], [], [])

  predicate IsMarker(line: string) {
    || Contains(line, TimelineStartMarker)
    || Contains(line, TimelineEndMarker)
    || Contains(line, ItineraryStartMarker)
    || Contains(line, ItineraryEndMarker)
  }

  /** Strips the line, drops it when nothing is left, then tests the four
      section markers by containment, in the order TIMELINE_START,
      TIMELINE_END, ITINERARY_START, ITINERARY_END, whatever the section. */
  function Classify(raw: string): (k: LineKind)
    ensures k.Blank? <==> AllSpace(raw)
    ensures k.Content? <==> !AllSpace(raw) && !IsMarker(Strip(raw))
    ensures k.Content? ==> k.line == Strip(raw) && k.line != [] && Trimmed(k.line)
    ensures k.TimelineStart? <==> !AllSpace(raw) && Contains(Strip(raw), TimelineStartMarker)
    ensures k.TimelineEnd? <==>
              !AllSpace(raw) && !Contains(Strip(raw), TimelineStartMarker) && Contains(Strip(raw), TimelineEndMarker)
    ensures k.ItineraryStart? <==>
              && !AllSpace(raw) && !Contains(Strip(raw), TimelineStartMarker)
              && !Contains(Strip(raw), TimelineEndMarker) && Contains(Strip(raw), ItineraryStartMarker)
    ensures k.ItineraryEnd? ==> Contains(Strip(raw), ItineraryEndMarker)
  {
    var line := Strip(raw);
    StripEmptyIffBlank(raw);
    if line == [] then Blank
    else if Contains(line, TimelineStartMarker) then TimelineStart
    else if Contains(line, TimelineEndMarker) then TimelineEnd
    else if Contains(line, ItineraryStartMarker) then ItineraryStart
    else if Contains(line, ItineraryEndMarker) then ItineraryEnd
    else Content(line)
  }

  /** A timeline row: the line split on its first colon, both halves
      stripped; no row for a line without a colon. */
  function ParseRow(line: string): (r: Option<Row>)
    ensures r.Some? <==> Contains(line, ":")
    ensures r.Some? ==> Trimmed(r.value.left) && Trimmed(r.value.right)
  {
    match Find(line, ":")
    case None => None
    case Some(i) => Some(Row(Strip(line[..i]), Strip(line[i + 1..])))
  }

  /** The blocks flushed for the buffer: a stop panel when a stop is open,
      nothing otherwise. */
  function FlushIfOpen(destination: string, fetch: ImageOracle, buffer: seq<string>): (r: seq<Block>)
    ensures buffer == [] <==> r == []
    ensures |r| == 0 || |r| == 2
  {
    if buffer == [] then [] else Flush(destination, fetch, buffer)
  }

  /** A content line inside the timeline. */
  function TimelineLine(st: State, line: string): (r: State)
    ensures r.section == st.section && r.buffer == st.buffer && r.blocks == st.blocks
    ensures Contains(line, ":") <==> |r.rows| == |st.rows| + 1
    ensures st.rows <= r.rows
  {
    match ParseRow(line)
    case None => st
    case Some(row) => st.(rows := st.rows + [row])
  }

  /** A content line inside the itinerary: a day heading, the start of a new
      stop, or a line of the open stop. */
  function ItineraryLine(destination: string, fetch: ImageOracle, st: State, line: string): (r: State)
    ensures r.section == st.section && r.rows == st.rows
    ensures st.blocks <= r.blocks
    ensures StopBuffer(st.buffer) ==> StopBuffer(r.buffer)
  {
    if StartsWith(line, DayMarker) then
      st.(blocks := st.blocks + [Para(DayStyle, line), Rule])
    else if StartsWith(line, StopMarker) then
      st.(blocks := st.blocks + FlushIfOpen(destination, fetch, st.buffer), buffer := [line])
    else if st.buffer != [] then
      st.(buffer := st.buffer + [line])
    else
      st
  }

  /** The blocks for a content line outside the timeline and the itinerary.
      The field markers are tested by containment in the order TITLE:,
      OVERVIEW:, GETTING_THERE:, TRAVEL_TIPS:. */
  function GeneralBlocks(destination: string, line: string): (r: seq<Block>)
    ensures 1 <= |r| <= 2
    ensures |r| == 2 <==>
              !Contains(line, "TITLE:") && !Contains(line, "OVERVIEW:")
              && (Contains(line, "GETTING_THERE:") || Contains(line, "TRAVEL_TIPS:"))
    ensures (&& !Contains(line, "TITLE:") && !Contains(line, "OVERVIEW:")
             && !Contains(line, "GETTING_THERE:") && !Contains(line, "TRAVEL_TIPS:"))
            <==> r == [Para(BodyStyle, line)]
    ensures CountPageBreaks(r) == 1 <==>
              && !Contains(line, "TITLE:") && !Contains(line, "OVERVIEW:")
              && !Contains(line, "GETTING_THERE:") && Contains(line, "TRAVEL_TIPS:")
    ensures Contains(line, "TITLE:") ==> r == [Para(TitleStyle, Strip(Replace(line, "TITLE:", "")))]
    ensures !Contains(line, "TITLE:") && Contains(line, "OVERVIEW:")
            ==> r == [Para(HeaderStyle, "Trip Overview")]
    ensures !Contains(line, "TITLE:") && !Contains(line, "OVERVIEW:") && Contains(line, "GETTING_THERE:")
            ==> r == [Spacer(10.0), Para(HeaderStyle, "How to Reach " + destination)]
    ensures (&& !Contains(line, "TITLE:") && !Contains(line, "OVERVIEW:")
             && !Contains(line, "GETTING_THERE:") && Contains(line, "TRAVEL_TIPS:"))
            ==> r == [PageBreak, Para(HeaderStyle, "Travel Tips")]
  {
    var title, overview := Contains(line, "TITLE:"), Contains(line, "OVERVIEW:");
    var reach, tips := Contains(line, "GETTING_THERE:"), Contains(line, "TRAVEL_TIPS:");
    var r :=
      if title then [Para(TitleStyle, Strip(Replace(line, "TITLE:", "")))]
      else if overview then [Para(HeaderStyle, "Trip Overview")]
      else if reach then [Spacer(10.0), Para(HeaderStyle, "How to Reach " + destination)]
      else if tips then [PageBreak, Para(HeaderStyle, "Travel Tips")]
      else [Para(BodyStyle, line)];
    assert CountPageBreaks(r) == (if !title && !overview && !reach && tips then 1 else 0) by {
      assert |r| == 1 ==> r[1..] == [];
      assert |r| == 2 ==> r[1..][1..] == [];
    }
    r
  }

  /** Every panel in the story opens with the name of its stop. */
  predicate PanelsNamed(bs: seq<Block>) {
    forall k :: 0 <= k < |bs| && bs[k].Panel? ==>
      bs[k].column != [] && bs[k].column[0].Field? && bs[k].column[0].caption == Place
  }

  /** The timeline tables in the story: each is the header followed by a
      prefix of the rows collected so far, and each later table extends every
      earlier one. */
  predicate TablesAccumulate(bs: seq<Block>, rows: seq<Row>) {
    && (forall k :: 0 <= k < |bs| && bs[k].Table? ==>
          bs[k].rows != [] && bs[k].rows[0] == TimelineHeader && bs[k].rows <= [TimelineHeader] + rows)
    && (forall j, k :: 0 <= j < k < |bs| && bs[j].Table? && bs[k].Table? ==> bs[j].rows <= bs[k].rows)
  }

  /** The invariant the loop keeps. */
  predicate Good(st: State) {
    StopBuffer(st.buffer) && PanelsNamed(st.blocks) && TablesAccumulate(st.blocks, st.rows)
  }

  lemma FlushKeepsPanelsNamed(destination: string, fetch: ImageOracle, bs: seq<Block>, buffer: seq<string>)
    requires PanelsNamed(bs) && StopBuffer(buffer)
    ensures PanelsNamed(bs + FlushIfOpen(destination, fetch, buffer))
  {
    var extra := FlushIfOpen(destination, fetch, buffer);
    var r := bs + extra;
    FlushIsNamed(destination, fetch, buffer);
    forall k | 0 <= k < |r| && r[k].Panel?
      ensures r[k].column != [] && r[k].column[0].Field? && r[k].column[0].caption == Place
    {
      if k < |bs| {
        assert r[k] == bs[k];
      } else {
        assert r[k] == extra[k - |bs|];
      }
    }
  }

  /** The blocks a flush emits: at most one panel, which is named. */
  lemma FlushIsNamed(destination: string, fetch: ImageOracle, buffer: seq<string>)
    requires StopBuffer(buffer)
    ensures PanelsNamed(FlushIfOpen(destination, fetch, buffer))
  {
    if buffer != [] {
      NamedPanelPair(Flush(destination, fetch, buffer));
    }
  }

  lemma NamedPanelPair(bs: seq<Block>)
    requires |bs| == 2 && bs[0].Panel? && !bs[1].Panel?
    requires bs[0].column != [] && bs[0].column[0].Field? && bs[0].column[0].caption == Place
    ensures PanelsNamed(bs)
  {
  }

  lemma AppendKeepsTables(bs: seq<Block>, rows: seq<Row>, extra: seq<Block>, rows': seq<Row>)
    requires TablesAccumulate(bs, rows) && rows <= rows'
    requires forall k :: 0 <= k < |extra| ==> !extra[k].Table?
    ensures TablesAccumulate(bs + extra, rows')
  {
    var r := bs + extra;
    forall k | 0 <= k < |r| && r[k].Table?
      ensures r[k].rows <= [TimelineHeader] + rows'
    {
      assert k < |bs|;
      assert [TimelineHeader] + rows <= [TimelineHeader] + rows';
    }
  }

  lemma TableEndKeepsTables(bs: seq<Block>, rows: seq<Row>)
    requires TablesAccumulate(bs, rows)
    ensures TablesAccumulate(bs + [Table([TimelineHeader] + rows), PageBreak], rows)
  {
  }

  /** One iteration of the loop over the lines. */
  function Step(destination: string, fetch: ImageOracle, st: State, raw: string): (r: State)
    ensures st.blocks <= r.blocks
    ensures st.rows <= r.rows && |r.rows| <= |st.rows| + 1
    ensures AllSpace(raw) ==> r == st
    ensures Classify(raw).Content? ==> r.section == st.section
    ensures Classify(raw).TimelineEnd? || Classify(raw).ItineraryEnd? ==> r.section == Normal
  {
    match Classify(raw)
    case Blank => st
    case TimelineStart =>
      st.(section := Timeline, blocks := st.blocks + TimelineOpening)
    case TimelineEnd =>
      st.(section := Normal, blocks := st.blocks + [Table([TimelineHeader] + st.rows), PageBreak])
    case ItineraryStart =>
      st.(section := Itinerary, blocks := st.blocks + ItineraryOpening)
    case ItineraryEnd =>
      st.(section := Normal, blocks := st.blocks + FlushIfOpen(destination, fetch, st.buffer))
    case Content(line) => ContentStep(destination, fetch, st, line)
  }

  /** A content line, handled by the current section. */
  function ContentStep(destination: string, fetch: ImageOracle, st: State, line: string): (r: State)
    ensures r.section == st.section
    ensures st.blocks <= r.blocks
    ensures st.rows <= r.rows && |r.rows| <= |st.rows| + 1
  {
    match st.section
    case Timeline => TimelineLine(st, line)
    case Itinerary => ItineraryLine(destination, fetch, st, line)
    case Normal => st.(blocks := st.blocks + GeneralBlocks(destination, line))
  }

  /** A content line is handed to its section. */
  lemma StepContent(destination: string, fetch: ImageOracle, st: State, raw: string)
    requires Classify(raw).Content?
    ensures Step(destination, fetch, st, raw) == ContentStep(destination, fetch, st, Classify(raw).line)
  {
  }

  lemma StepKeepsGood(destination: string, fetch: ImageOracle, st: State, raw: string)
    requires Good(st)
    ensures Good(Step(destination, fetch, st, raw))
  {
    var k := Classify(raw);
    if k.Content? {
      StepContent(destination, fetch, st, raw);
      ContentKeepsGood(destination, fetch, st, k.line);
    } else if k.TimelineEnd? || k.ItineraryEnd? {
      EndMarkerKeepsGood(destination, fetch, st, raw);
    } else if k.TimelineStart? || k.ItineraryStart? {
      StartMarkerKeepsGood(destination, fetch, st, raw);
    } else {
      assert AllSpace(raw);
    }
  }

  /** The two start markers only append headings. */
  lemma StartMarkerKeepsGood(destination: string, fetch: ImageOracle, st: State, raw: string)
    requires Good(st)
    requires Classify(raw).TimelineStart? || Classify(raw).ItineraryStart?
    ensures Good(Step(destination, fetch, st, raw))
  {
    OpeningsPlain();
    if Classify(raw).TimelineStart? {
      TimelineStartStep(destination, fetch, st, raw);
      PlainKeepsGood(st, Timeline, TimelineOpening);
    } else {
      ItineraryStartStep(destination, fetch, st, raw);
      PlainKeepsGood(st, Itinerary, ItineraryOpening);
    }
  }

  lemma TimelineStartStep(destination: string, fetch: ImageOracle, st: State, raw: string)
    requires Classify(raw).TimelineStart?
    ensures Step(destination, fetch, st, raw) == st.(section := Timeline, blocks := st.blocks + TimelineOpening)
  {
  }

  lemma ItineraryStartStep(destination: string, fetch: ImageOracle, st: State, raw: string)
    requires Classify(raw).ItineraryStart?
    ensures Step(destination, fetch, st, raw) == st.(section := Itinerary, blocks := st.blocks + ItineraryOpening)
  {
  }

  /** A block that is neither a table nor a panel. */
  predicate Plain(b: Block) {
    !b.Table? && !b.Panel?
  }

  lemma OpeningsPlain()
    ensures forall k :: 0 <= k < |TimelineOpening| ==> Plain(TimelineOpening[k])
    ensures forall k :: 0 <= k < |ItineraryOpening| ==> Plain(ItineraryOpening[k])
  {
  }

  /** Appending plain blocks keeps the invariant, whatever the section. */
  lemma PlainKeepsGood(st: State, section: Section, extra: seq<Block>)
    requires Good(st)
    requires forall k :: 0 <= k < |extra| ==> Plain(extra[k])
    ensures Good(st.(section := section, blocks := st.blocks + extra))
  {
    AppendKeepsTables(st.blocks, st.rows, extra, st.rows);
  }

  /** The two end markers emit the timeline table or flush the open stop. */
  lemma EndMarkerKeepsGood(destination: string, fetch: ImageOracle, st: State, raw: string)
    requires Good(st)
    requires Classify(raw).TimelineEnd? || Classify(raw).ItineraryEnd?
    ensures Good(Step(destination, fetch, st, raw))
  {
    var r := Step(destination, fetch, st, raw);
    if Classify(raw).TimelineEnd? {
      assert r == st.(section := Normal, blocks := st.blocks + [Table([TimelineHeader] + st.rows), PageBreak]);
      TimelineEndKeepsGood(st);
    } else {
      assert r == st.(section := Normal, blocks := st.blocks + FlushIfOpen(destination, fetch, st.buffer));
      ItineraryEndKeepsGood(destination, fetch, st);
    }
  }

  lemma TimelineEndKeepsGood(st: State)
    requires Good(st)
    ensures Good(st.(section := Normal, blocks := st.blocks + [Table([TimelineHeader] + st.rows), PageBreak]))
  {
    TableEndKeepsTables(st.blocks, st.rows);
  }

  lemma ItineraryEndKeepsGood(destination: string, fetch: ImageOracle, st: State)
    requires Good(st)
    ensures Good(st.(section := Normal, blocks := st.blocks + FlushIfOpen(destination, fetch, st.buffer)))
  {
    var extra := FlushIfOpen(destination, fetch, st.buffer);
    FlushHasNoTable(destination, fetch, st.buffer);
    FlushKeepsPanelsNamed(destination, fetch, st.blocks, st.buffer);
    AppendKeepsTables(st.blocks, st.rows, extra, st.rows);
  }

  lemma FlushHasNoTable(destination: string, fetch: ImageOracle, buffer: seq<string>)
    ensures forall k :: 0 <= k < |FlushIfOpen(destination, fetch, buffer)| ==>
              !FlushIfOpen(destination, fetch, buffer)[k].Table?
  {
  }

  lemma ContentKeepsGood(destination: string, fetch: ImageOracle, st: State, line: string)
    requires Good(st)
    ensures Good(ContentStep(destination, fetch, st, line))
  {
    match st.section
    case Timeline =>
      TimelineLineKeepsGood(st, line);
    case Itinerary =>
      ItineraryLineKeepsGood(destination, fetch, st, line);
    case Normal =>
      GeneralBlocksPlain(destination, line);
      PlainKeepsGood(st, Normal, GeneralBlocks(destination, line));
  }

  lemma TimelineLineKeepsGood(st: State, line: string)
    requires Good(st)
    ensures Good(TimelineLine(st, line))
  {
    var r := TimelineLine(st, line);
    assert st.blocks + [] == st.blocks;
    AppendKeepsTables(st.blocks, st.rows, [], r.rows);
  }

  lemma GeneralBlocksPlain(destination: string, line: string)
    ensures forall k :: 0 <= k < |GeneralBlocks(destination, line)| ==> Plain(GeneralBlocks(destination, line)[k])
  {
  }

  lemma ItineraryLineKeepsGood(destination: string, fetch: ImageOracle, st: State, line: string)
    requires Good(st)
    ensures Good(ItineraryLine(destination, fetch, st, line))
  {
    var r := ItineraryLine(destination, fetch, st, line);
    if StartsWith(line, DayMarker) {
      AppendKeepsTables(st.blocks, st.rows, [Para(DayStyle, line), Rule], st.rows);
    } else if StartsWith(line, StopMarker) {
      FlushHasNoTable(destination, fetch, st.buffer);
      FlushKeepsPanelsNamed(destination, fetch, st.blocks, st.buffer);
      AppendKeepsTables(st.blocks, st.rows, FlushIfOpen(destination, fetch, st.buffer), st.rows);
    } else {
      assert r.blocks == st.blocks;
    }
  }

  /** The loop over `lines`, from state `st`. */
  function Run(destination: string, fetch: ImageOracle, st: State, lines: seq<string>): (r: State)
    ensures st.blocks <= r.blocks
    ensures st.rows <= r.rows && |r.rows| <= |st.rows| + |lines|
    ensures Good(st) ==> Good(r)
    decreases |lines|
  {
    if lines == [] then st
    else
      var prev := Run(destination, fetch, st, lines[..|lines| - 1]);
      var r := Step(destination, fetch, prev, lines[|lines| - 1]);
      assert Good(prev) ==> Good(r) by {
        if Good(prev) { StepKeepsGood(destination, fetch, prev, lines[|lines| - 1]); }
      }
      r
  }

  /** The whole story for a generated text: the text is split on newlines and
      the loop runs over the lines. Nothing is flushed after the last line. */
  function Compile(destination: string, fetch: ImageOracle, text: string): (story: seq<Block>)
    ensures PanelsNamed(story)
    ensures forall k :: 0 <= k < |story| && story[k].Table? ==> story[k].rows != [] && story[k].rows[0] == TimelineHeader
    ensures forall j, k :: 0 <= j < k < |story| && story[j].Table? && story[k].Table? ==> story[j].rows <= story[k].rows
  {
    var r := Run(destination, fetch, Initial, Split(text, "\n"));
    assert Good(Initial);
    r.blocks
  }
}

=== FILE: line_compiler_lemmas.dfy ===
/** Properties of the line-oriented compiler that relate several steps or
    pin down what one kind of line does, including behaviours that are easy
    to misread: day lines do not close
    the open stop, ITINERARY_END flushes without clearing, nothing is
    flushed after the last line, and timeline rows are never reset. */
module LineCompilerLemmas {
  import opened Basics
  import opened Text
  import opened Story
  import opened StopPanel
  import opened LineCompiler

  lemma RunOne(destination: string, fetch: ImageOracle, st: State, raw: string)
    ensures Run(destination, fetch, st, [raw]) == Step(destination, fetch, st, raw)
  {
    assert [raw][..0] == [];
  }

  /** One more line is one more step. */
  lemma RunLast(destination: string, fetch: ImageOracle, st: State, lines: seq<string>)
    requires lines != []
    ensures Run(destination, fetch, st, lines) ==
              Step(destination, fetch, Run(destination, fetch, st, lines[..|lines| - 1]), lines[|lines| - 1])
  {
  }

  /** Running over a concatenation runs over each part in turn. */
  lemma {:induction false} RunAppend(destination: string, fetch: ImageOracle, st: State, xs: seq<string>, ys: seq<string>)
    ensures Run(destination, fetch, st, xs + ys) == Run(destination, fetch, Run(destination, fetch, st, xs), ys)
    decreases |ys|
  {
    if ys == [] {
      assert xs + ys == xs;
    } else {
      var zs := xs + ys;
      assert zs[..|zs| - 1] == xs + ys[..|ys| - 1];
      assert zs[|zs| - 1] == ys[|ys| - 1];
      RunAppend(destination, fetch, st, xs, ys[..|ys| - 1]);
      RunLast(destination, fetch, st, zs);
      RunLast(destination, fetch, Run(destination, fetch, st, xs), ys);
    }
  }

  /** The story is produced as the lines stream in: the story for a prefix of
      the input is a prefix of the story for the whole input, and so are the
      timeline rows. */
  lemma StoryGrowsWithInput(destination: string, fetch: ImageOracle, st: State, xs: seq<string>, ys: seq<string>)
    ensures Run(destination, fetch, st, xs).blocks <= Run(destination, fetch, st, xs + ys).blocks
    ensures Run(destination, fetch, st, xs).rows <= Run(destination, fetch, st, xs + ys).rows
  {
    RunAppend(destination, fetch, st, xs, ys);
  }

  // ---------------------------------------------------------------- timeline

  /** `split(":", 1)`: a line splits at its first colon. */
  lemma RowSplitsAtFirstColon(line: string, a: string, b: string)
    requires line == a + ":" + b && ':' !in a
    ensures ParseRow(line) == Some(Row(Strip(a), Strip(b)))
  {
    FindFirstChar(a, ':', b);
    assert line[..|a|] == a;
    assert line[|a| + 1..] == b;
  }

  /** Inside the timeline, a line with a colon adds exactly one row, split at
      the first colon, and nothing else changes. */
  lemma TimelineRowStep(destination: string, fetch: ImageOracle, st: State, raw: string, a: string, b: string)
    requires st.section == Timeline
    requires Classify(raw).Content? && Classify(raw).line == a + ":" + b && ':' !in a
    ensures Step(destination, fetch, st, raw) == st.(rows := st.rows + [Row(Strip(a), Strip(b))])
  {
    StepContent(destination, fetch, st, raw);
    RowSplitsAtFirstColon(Classify(raw).line, a, b);
  }

  /** Inside the timeline, a line without a colon changes nothing. */
  lemma TimelineNoColonStep(destination: string, fetch: ImageOracle, st: State, raw: string)
    requires st.section == Timeline
    requires Classify(raw).Content? && ':' !in Classify(raw).line
    ensures Step(destination, fetch, st, raw) == st
  {
    StepContent(destination, fetch, st, raw);
    MissingCharNotContained(Classify(raw).line, ":", ':');
  }

  /** TIMELINE_END, in any section, emits the header and every row collected
      so far as a table, then a page break, and keeps the rows. */
  lemma TimelineEndStep(destination: string, fetch: ImageOracle, st: State, raw: string)
    requires Classify(raw).TimelineEnd?
    ensures var r := Step(destination, fetch, st, raw);
            && r.blocks == st.blocks + [Table([TimelineHeader] + st.rows), PageBreak]
            && r.rows == st.rows && r.buffer == st.buffer && r.section == Normal
  {
  }

  // --------------------------------------------------------------- itinerary

  /** A STOP: line flushes the open stop, if any, and opens a buffer holding
      only itself, so no line of the earlier stop reaches the new one. */
  lemma StopLineStep(destination: string, fetch: ImageOracle, st: State, raw: string)
    requires st.section == Itinerary
    requires Classify(raw).Content? && StartsWith(Classify(raw).line, StopMarker)
    ensures var r := Step(destination, fetch, st, raw);
            && r.buffer == [Classify(raw).line]
            && r.blocks == st.blocks + FlushIfOpen(destination, fetch, st.buffer)
            && r.section == Itinerary && r.rows == st.rows
  {
    StepContent(destination, fetch, st, raw);
    StopLineContent(destination, fetch, st, Classify(raw).line);
  }

  lemma StopLineContent(destination: string, fetch: ImageOracle, st: State, line: string)
    requires st.section == Itinerary && StartsWith(line, StopMarker)
    ensures ContentStep(destination, fetch, st, line) ==
              st.(blocks := st.blocks + FlushIfOpen(destination, fetch, st.buffer), buffer := [line])
  {
    assert line[0] == 'S' by { assert line[..5] == StopMarker; }
    assert !StartsWith(line, DayMarker);
  }

  /** A day line emits the day heading and a rule and leaves the open stop
      open. */
  lemma DayLineStep(destination: string, fetch: ImageOracle, st: State, raw: string)
    requires st.section == Itinerary
    requires Classify(raw).Content? && StartsWith(Classify(raw).line, DayMarker)
    ensures Step(destination, fetch, st, raw) ==
              st.(blocks := st.blocks + [Para(DayStyle, Classify(raw).line), Rule])
  {
    StepContent(destination, fetch, st, raw);
  }

  /** Any other itinerary line joins the open stop, or is dropped when no stop
      is open. */
  lemma DetailLineStep(destination: string, fetch: ImageOracle, st: State, raw: string)
    requires st.section == Itinerary
    requires Classify(raw).Content?
    requires !StartsWith(Classify(raw).line, DayMarker) && !StartsWith(Classify(raw).line, StopMarker)
    ensures Step(destination, fetch, st, raw) ==
              if st.buffer == [] then st else st.(buffer := st.buffer + [Classify(raw).line])
  {
    StepContent(destination, fetch, st, raw);
  }

  /** ITINERARY_END, in any section, flushes the open stop but does not clear
      the buffer. */
  lemma ItineraryEndStep(destination: string, fetch: ImageOracle, st: State, raw: string)
    requires Classify(raw).ItineraryEnd?
    ensures var r := Step(destination, fetch, st, raw);
            && r.blocks == st.blocks + FlushIfOpen(destination, fetch, st.buffer)
            && r.buffer == st.buffer && r.rows == st.rows && r.section == Normal
  {
  }

  /** Because the buffer survives ITINERARY_END, a second ITINERARY_END emits
      the same stop's panel again. */
  lemma ItineraryEndTwiceRepeatsPanel(destination: string, fetch: ImageOracle, st: State, e1: string, e2: string)
    requires Classify(e1).ItineraryEnd? && Classify(e2).ItineraryEnd?
    requires st.buffer != []
    ensures Step(destination, fetch, Step(destination, fetch, st, e1), e2).blocks ==
              st.blocks + Flush(destination, fetch, st.buffer) + Flush(destination, fetch, st.buffer)
  {
    ItineraryEndStep(destination, fetch, st, e1);
    ItineraryEndStep(destination, fetch, Step(destination, fetch, st, e1), e2);
  }

  /** A day line between two stops does not close the first: its panel is
      emitted after the new day's heading, when the second stop starts, and
      the second stop is still open afterwards. */
  lemma DayLineDefersPanel(destination: string, fetch: ImageOracle, st: State, s1: string, d: string, s2: string)
    requires st.section == Itinerary
    requires Classify(s1).Content? && StartsWith(Classify(s1).line, StopMarker)
    requires Classify(d).Content? && StartsWith(Classify(d).line, DayMarker)
    requires Classify(s2).Content? && StartsWith(Classify(s2).line, StopMarker)
    ensures var r := Step(destination, fetch, Step(destination, fetch, Step(destination, fetch, st, s1), d), s2);
            && r.blocks == st.blocks + FlushIfOpen(destination, fetch, st.buffer)
                           + [Para(DayStyle, Classify(d).line), Rule]
                           + Flush(destination, fetch, [Classify(s1).line])
            && r.buffer == [Classify(s2).line]
  {
    var st1 := Step(destination, fetch, st, s1);
    var st2 := Step(destination, fetch, st1, d);
    StopLineStep(destination, fetch, st, s1);
    DayLineStep(destination, fetch, st1, d);
    StopLineStep(destination, fetch, st2, s2);
  }

  /** Inside the itinerary, blank lines and lines that open neither a day
      nor a stop emit nothing and keep the section; they only extend an open
      buffer. */
  lemma {:induction false} DetailLinesEmitNothing(destination: string, fetch: ImageOracle, st: State, ys: seq<string>)
    requires st.section == Itinerary
    requires forall k :: 0 <= k < |ys| ==> Detail(ys[k])
    ensures var r := Run(destination, fetch, st, ys);
            && r.blocks == st.blocks && r.section == Itinerary && r.rows == st.rows
            && st.buffer <= r.buffer && (r.buffer == [] <==> st.buffer == [])
    decreases |ys|
  {
    if ys != [] {
      var init := ys[..|ys| - 1];
      DetailLinesEmitNothing(destination, fetch, st, init);
      var mid := Run(destination, fetch, st, init);
      RunLast(destination, fetch, st, ys);
      var raw := ys[|ys| - 1];
      assert Detail(raw);
      if Classify(raw).Content? {
        DetailLineStep(destination, fetch, mid, raw);
      }
    }
  }

  /** A line that, inside the itinerary, neither emits anything nor changes
      the section. */
  predicate Detail(raw: string) {
    || Classify(raw).Blank?
    || (&& Classify(raw).Content?
        && !StartsWith(Classify(raw).line, DayMarker)
        && !StartsWith(Classify(raw).line, StopMarker))
  }

  /** No flush at the end of the text: when the last STOP: line of the text is
      followed only by detail lines, the story ends with whatever that STOP:
      line flushed, and the last stop's own panel is never emitted. */
  lemma LastStopNeverFlushed(destination: string, fetch: ImageOracle, text: string, xs: seq<string>, s: string, ys: seq<string>)
    requires Split(text, "\n") == xs + [s] + ys
    requires Run(destination, fetch, Initial, xs).section == Itinerary
    requires Classify(s).Content? && StartsWith(Classify(s).line, StopMarker)
    requires forall k :: 0 <= k < |ys| ==> Detail(ys[k])
    ensures var before := Run(destination, fetch, Initial, xs);
            Compile(destination, fetch, text) == before.blocks + FlushIfOpen(destination, fetch, before.buffer)
  {
    var before := Run(destination, fetch, Initial, xs);
    RunAppend(destination, fetch, Initial, xs + [s], ys);
    RunAppend(destination, fetch, Initial, xs, [s]);
    RunOne(destination, fetch, before, s);
    StopLineStep(destination, fetch, before, s);
    DetailLinesEmitNothing(destination, fetch, Step(destination, fetch, before, s), ys);
  }

  // ----------------------------------------------------------------- general

  /** A TITLE: line becomes the title paragraph: the marker removed and the
      rest stripped. */
  lemma TitleLineBlocks(destination: string, rest: string)
    requires !Contains(rest, "TITLE:")
    ensures GeneralBlocks(destination, "TITLE:" + rest) == [Para(TitleStyle, Strip(rest))]
  {
    var line := "TITLE:" + rest;
    assert StartsWith(line, "TITLE:") by { assert line[..6] == "TITLE:"; }
    assert Contains(line, "TITLE:") by { StartsWithContains(line, "TITLE:"); }
    assert Replace(line, "TITLE:", "") == rest by {
      ReplaceLeading(line, "TITLE:", "");
      assert line[6..] == rest;
    }
  }

  /** The marker may sit anywhere in the line: with a single "TITLE:", the
      title is the text before it joined to the text after it, stripped, so
      "**TITLE:** Journey" gives "**** Journey". */
  lemma TitleInLine(destination: string, line: string, i: nat)
    requires Find(line, "TITLE:") == Some(i) && !Contains(line[i + 6..], "TITLE:")
    ensures GeneralBlocks(destination, line) == [Para(TitleStyle, Strip(line[..i] + line[i + 6..]))]
  {
    ReplaceFirst(line, "TITLE:", "", i);
    assert line[..i] + "" + line[i + 6..] == line[..i] + line[i + 6..];
  }

  // ---------------------------------------------------------------- sections

  /** The section a marker line switches to. */
  function Target(k: LineKind): Section
    requires !k.Blank? && !k.Content?
  {
    match k
    case TimelineStart => Timeline
    case ItineraryStart => Itinerary
    case TimelineEnd => Normal
    case ItineraryEnd => Normal
  }

  /** Lines that are not markers never change the section. */
  lemma {:induction false} NonMarkersKeepSection(destination: string, fetch: ImageOracle, st: State, ys: seq<string>)
    requires forall k :: 0 <= k < |ys| ==> Classify(ys[k]).Content? || Classify(ys[k]).Blank?
    ensures Run(destination, fetch, st, ys).section == st.section
    decreases |ys|
  {
    if ys != [] {
      NonMarkersKeepSection(destination, fetch, st, ys[..|ys| - 1]);
    }
  }

  /** Sections do not nest: after any input, the section is the one the last
      marker line switched to, whatever came before it. In particular a text
      whose last marker is TIMELINE_END or ITINERARY_END ends in the normal
      section. */
  lemma SectionFollowsLastMarker(destination: string, fetch: ImageOracle, st: State, xs: seq<string>, m: string, ys: seq<string>)
    requires !Classify(m).Blank? && !Classify(m).Content?
    requires forall k :: 0 <= k < |ys| ==> Classify(ys[k]).Content? || Classify(ys[k]).Blank?
    ensures Run(destination, fetch, st, xs + [m] + ys).section == Target(Classify(m))
  {
    RunAppend(destination, fetch, st, xs + [m], ys);
    RunAppend(destination, fetch, st, xs, [m]);
    var before := Run(destination, fetch, st, xs);
    RunOne(destination, fetch, before, m);
    NonMarkersKeepSection(destination, fetch, Run(destination, fetch, st, xs + [m]), ys);
  }

  // ------------------------------------------------------------------ images

  /** Two loop states that differ at most in the images of their panels. */
  predicate SameUpToImages(s1: State, s2: State) {
    && s1.section == s2.section && s1.buffer == s2.buffer && s1.rows == s2.rows
    && EraseImages(s1.blocks) == EraseImages(s2.blocks)
  }

  lemma AppendUpToImages(s1: State, s2: State, e1: seq<Block>, e2: seq<Block>)
    requires EraseImages(s1.blocks) == EraseImages(s2.blocks) && EraseImages(e1) == EraseImages(e2)
    ensures EraseImages(s1.blocks + e1) == EraseImages(s2.blocks + e2)
  {
    EraseImagesAppend(s1.blocks, e1);
    EraseImagesAppend(s2.blocks, e2);
  }

  lemma FlushIfOpenUpToImages(destination: string, f: ImageOracle, g: ImageOracle, buffer: seq<string>)
    ensures EraseImages(FlushIfOpen(destination, f, buffer)) == EraseImages(FlushIfOpen(destination, g, buffer))
  {
    if buffer != [] {
      FlushImageIndependent(destination, f, g, buffer);
    }
  }

  lemma StepUpToImages(destination: string, f: ImageOracle, g: ImageOracle, s1: State, s2: State, raw: string)
    requires SameUpToImages(s1, s2)
    ensures SameUpToImages(Step(destination, f, s1, raw), Step(destination, g, s2, raw))
  {
    var r1 := Step(destination, f, s1, raw);
    var r2 := Step(destination, g, s2, raw);
    match Classify(raw)
    case Blank =>
    case TimelineStart =>
      AppendUpToImages(s1, s2, TimelineOpening, TimelineOpening);
    case TimelineEnd =>
      var e := [Table([TimelineHeader] + s1.rows), PageBreak];
      AppendUpToImages(s1, s2, e, e);
    case ItineraryStart =>
      AppendUpToImages(s1, s2, ItineraryOpening, ItineraryOpening);
    case ItineraryEnd =>
      var e1 := FlushIfOpen(destination, f, s1.buffer);
      var e2 := FlushIfOpen(destination, g, s2.buffer);
      assert r1 == s1.(section := Normal, blocks := s1.blocks + e1);
      assert r2 == s2.(section := Normal, blocks := s2.blocks + e2);
      FlushIfOpenUpToImages(destination, f, g, s1.buffer);
      AppendUpToImages(s1, s2, e1, e2);
    case Content(line) =>
      match s1.section
      case Timeline =>
      case Normal =>
        var e := GeneralBlocks(destination, line);
        AppendUpToImages(s1, s2, e, e);
      case Itinerary =>
        if StartsWith(line, DayMarker) {
          AppendUpToImages(s1, s2, [Para(DayStyle, line), Rule], [Para(DayStyle, line), Rule]);
        } else if StartsWith(line, StopMarker) {
          var e1 := FlushIfOpen(destination, f, s1.buffer);
          var e2 := FlushIfOpen(destination, g, s2.buffer);
          assert r1.blocks == s1.blocks + e1;
          assert r2.blocks == s2.blocks + e2;
          FlushIfOpenUpToImages(destination, f, g, s1.buffer);
          AppendUpToImages(s1, s2, e1, e2);
        }
  }

  lemma {:induction false} RunUpToImages(destination: string, f: ImageOracle, g: ImageOracle, st: State, lines: seq<string>)
    ensures SameUpToImages(Run(destination, f, st, lines), Run(destination, g, st, lines))
    decreases |lines|
  {
    if lines != [] {
      var init := lines[..|lines| - 1];
      RunUpToImages(destination, f, g, st, init);
      StepUpToImages(destination, f, g, Run(destination, f, st, init), Run(destination, g, st, init), lines[|lines| - 1]);
    }
  }

  /** Image availability never changes the shape of the story: with any two
      lookups, in particular one that always fails, the stories have the same
      blocks once the panels' images are set aside. */
  lemma CompileImageIndependent(destination: string, f: ImageOracle, g: ImageOracle, text: string)
    ensures EraseImages(Compile(destination, f, text)) == EraseImages(Compile(destination, g, text))
    ensures |Compile(destination, f, text)| == |Compile(destination, g, text)|
  {
    RunUpToImages(destination, f, g, Initial, Split(text, "\n"));
  }
}

=== FILE: number_format.dfy ===
/** Python's decimal rendering of integers: `str(n)` and the thousands
    grouping of the format spec `{n:,}`, as used for the trip's duration and
    budget in the overview table (travel_agent_py.py). */
module NumberFormat {

  predicate IsDigit(c: char) {
    '0' <= c <= '9'
  }

  predicate AllDigits(s: string) {
    forall k :: 0 <= k < |s| ==> IsDigit(s[k])
  }

  function DigitChar(d: nat): (c: char)
    requires d < 10
    ensures IsDigit(c)
  {
    ('0' as int + d) as char
  }

  function DigitValue(c: char): (d: nat)
    requires IsDigit(c)
    ensures d < 10 && DigitChar(d) == c
  {
    c as int - '0' as int
  }

  /** The number a string of decimal digits denotes (0 for the empty string). */
  function ValueOf(ds: string): nat
    requires AllDigits(ds)
  {
    if ds == [] then 0
    else ValueOf(ds[..|ds| - 1]) * 10 + DigitValue(ds[|ds| - 1])
  }

  /** `str(n)` for a natural number: its digits, most significant first. */
  function Decimal(n: nat): (r: string)
    ensures r != [] && AllDigits(r)
    ensures |r| > 1 ==> r[0] != '0'
  {
    if n < 10 then [DigitChar(n)]
    else Decimal(n / 10) + [DigitChar(n % 10)]
  }

  /** Reading the digits back gives the number. */
  lemma {:induction false} DecimalRoundTrip(n: nat)
    ensures ValueOf(Decimal(n)) == n
  {
    if n >= 10 {
      var r := Decimal(n);
      assert r[..|r| - 1] == Decimal(n / 10);
      DecimalRoundTrip(n / 10);
    }
  }

  /** Distinct numbers print differently. */
  lemma DecimalInjective(m: nat, n: nat)
    requires Decimal(m) == Decimal(n)
    ensures m == n
  {
    DecimalRoundTrip(m);
    DecimalRoundTrip(n);
  }

  /** `str(i)` for any integer: a minus sign before the magnitude when negative. */
  function IntToString(i: int): (r: string)
    ensures r != []
    ensures i < 0 <==> r[0] == '-'
  {
    if i < 0 then "-" + Decimal(-i) else Decimal(i)
  }

  /** The shape of what `str` prints for an integer: digits, after a minus
      sign or not. */
  predicate IntText(s: string) {
    && s != []
    && (s[0] == '-' ==> AllDigits(s[1..]))
    && (s[0] != '-' ==> AllDigits(s))
  }

  /** Reads back what `IntToString` prints. */
  function ReadInt(s: string): int
    requires IntText(s)
  {
    if s[0] == '-' then -(ValueOf(s[1..]) as int) else ValueOf(s)
  }

  lemma IntToStringRoundTrip(i: int)
    ensures IntText(IntToString(i)) && ReadInt(IntToString(i)) == i
  {
    if i < 0 {
      assert IntToString(i)[1..] == Decimal(-i);
      DecimalRoundTrip(-i);
    } else {
      DecimalRoundTrip(i);
    }
  }

  /** A run of digits with a comma between every group of three, counted from
      the right. */
  function Group(ds: string): (r: string)
    requires AllDigits(ds)
    ensures ds != [] ==> |r| == |ds| + (|ds| - 1) / 3
    ensures ds == [] ==> r == []
    ensures ds != [] ==> r[0] == ds[0]
  {
    if |ds| <= 3 then ds
    else Group(ds[..|ds| - 3]) + "," + ds[|ds| - 3..]
  }

  /** The string with its commas deleted. */
  function Uncomma(s: string): string {
    if s == [] then []
    else Uncomma(s[..|s| - 1]) + (if s[|s| - 1] == ',' then [] else [s[|s| - 1]])
  }

  lemma {:induction false} UncommaAppend(a: string, b: string)
    ensures Uncomma(a + b) == Uncomma(a) + Uncomma(b)
    decreases |b|
  {
    if b == [] {
      assert a + b == a;
    } else {
      assert (a + b)[..|a + b| - 1] == a + b[..|b| - 1];
      UncommaAppend(a, b[..|b| - 1]);
    }
  }

  lemma {:induction false} UncommaDigits(ds: string)
    requires AllDigits(ds)
    ensures Uncomma(ds) == ds
    decreases |ds|
  {
    if ds != [] {
      UncommaDigits(ds[..|ds| - 1]);
    }
  }

  lemma UncommaComma()
    ensures Uncomma(",") == []
  {
    assert ","[..0] == [];
  }

  /** Grouping only inserts commas: deleting them gives the digits back. */
  lemma {:induction false} GroupUncomma(ds: string)
    requires AllDigits(ds)
    ensures Uncomma(Group(ds)) == ds
    decreases |ds|
  {
    if |ds| <= 3 {
      UncommaDigits(ds);
    } else {
      var head, tail := ds[..|ds| - 3], ds[|ds| - 3..];
      var g := Group(head);
      assert Group(ds) == g + "," + tail;
      GroupUncomma(head);
      UncommaAppend(g + ",", tail);
      UncommaAppend(g, ",");
      UncommaDigits(tail);
      UncommaComma();
      assert Uncomma(g + "," + tail) == head + tail;
      assert head + tail == ds;
    }
  }

  /** The commas sit exactly at every fourth place counted from the right,
      so every group has three digits except possibly the leftmost, which is
      never empty. */
  lemma {:induction false} GroupCommaPositions(ds: string)
    requires AllDigits(ds) && ds != []
    ensures forall k :: 0 <= k < |Group(ds)| ==> (Group(ds)[k] == ',' <==> (|Group(ds)| - k) % 4 == 0)
    decreases |ds|
  {
    if |ds| > 3 {
      var head, tail := ds[..|ds| - 3], ds[|ds| - 3..];
      GroupCommaPositions(head);
      assert Group(ds) == Group(head) + "," + tail;
      CommaAfterGroup(Group(head), tail);
    } else {
      var r := Group(ds);
      forall k | 0 <= k < |r|
        ensures r[k] == ',' <==> (|r| - k) % 4 == 0
      {
        assert IsDigit(r[k]);
      }
    }
  }

  /** A comma and three more digits after a correctly grouped run keep the
      commas at every fourth place from the right. */
  lemma CommaAfterGroup(g: string, tail: string)
    requires |tail| == 3 && AllDigits(tail)
    requires forall k :: 0 <= k < |g| ==> (g[k] == ',' <==> (|g| - k) % 4 == 0)
    ensures forall k :: 0 <= k < |g + "," + tail| ==> ((g + "," + tail)[k] == ',' <==> (|g + "," + tail| - k) % 4 == 0)
  {
    var r := g + "," + tail;
    forall k | 0 <= k < |r|
      ensures r[k] == ',' <==> (|r| - k) % 4 == 0
    {
      if k < |g| {
        assert r[k] == g[k];
        assert (|r| - k) % 4 == (|g| - k) % 4;
      } else if k == |g| {
        assert r[k] == ',';
      } else {
        assert r[k] == tail[k - |g| - 1];
        assert IsDigit(tail[k - |g| - 1]);
      }
    }
  }

  /** From position `from` on, commas sit exactly at every fourth place
      counted from the right of `s`. */
  predicate CommasFrom(s: string, from: nat) {
    forall k :: from <= k < |s| ==> (s[k] == ',' <==> (|s| - k) % 4 == 0)
  }

  /** Text put in front of a grouped run does not move its commas relative to
      the right end. */
  lemma CommasAfterPrefix(p: string, g: string, from: nat)
    requires CommasFrom(g, from)
    ensures CommasFrom(p + g, |p| + from)
  {
    var s := p + g;
    forall k | |p| + from <= k < |s|
      ensures s[k] == ',' <==> (|s| - k) % 4 == 0
    {
      assert s[k] == g[k - |p|];
      assert |s| - k == |g| - (k - |p|);
    }
  }

  /** `{i:,}` for any integer: the magnitude grouped, after a minus sign when
      negative. After the sign, the commas sit at every fourth place from the
      right, so every group has three digits except possibly the leftmost. */
  function Grouped(i: int): (r: string)
    ensures r != [] && (i < 0 <==> r[0] == '-')
    ensures CommasFrom(r, if i < 0 then 1 else 0)
    ensures |r| > (if i < 0 then 1 else 0) && IsDigit(r[if i < 0 then 1 else 0])
  {
    var g := Group(Decimal(if i < 0 then -i else i));
    GroupCommaPositions(Decimal(if i < 0 then -i else i));
    assert CommasFrom(g, 0);
    if i < 0 then
      CommasAfterPrefix("-", g, 0);
      "-" + g
    else
      g
  }

  lemma UncommaSigned(x: string)
    ensures Uncomma("-" + x) == "-" + Uncomma(x)
  {
    UncommaAppend("-", x);
    assert "-"[..0] == [];
  }

  /** Grouping only inserts commas into what `str` prints. */
  lemma GroupedUncomma(i: int)
    ensures Uncomma(Grouped(i)) == IntToString(i)
  {
    if i < 0 {
      GroupUncomma(Decimal(-i));
      UncommaSigned(Group(Decimal(-i)));
    } else {
      GroupUncomma(Decimal(i));
    }
  }

  /** The budget cell: a dollar sign, then the grouped amount. Deleting the
      commas leaves `str(budget)`, which reads back as the budget, and after
      the dollar sign and any minus sign the commas sit at every fourth place
      from the right. */
  function BudgetText(budget: int): (r: string)
    ensures |r| >= 2 && r[0] == '$'
    ensures Uncomma(r[1..]) == IntToString(budget)
    ensures CommasFrom(r, if budget < 0 then 2 else 1)
    ensures |r| > (if budget < 0 then 2 else 1) && IsDigit(r[if budget < 0 then 2 else 1])
  {
    var r := "$" + Grouped(budget);
    assert r[1..] == Grouped(budget);
    GroupedUncomma(budget);
    CommasAfterPrefix("$", Grouped(budget), if budget < 0 then 1 else 0);
    r
  }
}

=== FILE: response_cleanup.dfy ===
/** The clean-up applied to the language model's reply before it is parsed
    as JSON (`generate_itinerary` in travel_agent_py.py): strip, drop a
    leading "```json" fence, then a leading "```" fence, then a trailing
    "```" fence, and strip again. */
module ResponseCleanup {
  import opened Text

  const JsonFence := "```json"
  const Fence := "```"

  /** The three fence checks, in the order the code makes them. Each test
      looks at the result of the one before. */
  function DropFences(content: string): (r: string)
    ensures Within(r, content)
  {
    var a := if StartsWith(content, JsonFence) then content[7..] else content;
    var b := if StartsWith(a, Fence) then a[3..] else a;
    var c := if EndsWith(b, Fence) then b[..|b| - 3] else b;
    assert OccursAt(content, a, |content| - |a|);
    assert OccursAt(a, b, |a| - |b|);
    assert OccursAt(b, c, 0);
    WithinTransitive(c, b, a);
    WithinTransitive(c, a, content);
    c
  }

  /** The text handed to `json.loads`: a contiguous piece of the reply, never
      longer than it, with no surrounding whitespace. */
  function CleanResponse(reply: string): (r: string)
    ensures Within(r, reply)
    ensures |r| <= |reply|
    ensures Trimmed(r)
  {
    var s := Strip(reply);
    var d := DropFences(s);
    var r := Strip(d);
    PaddedIsWithin(s, reply);
    PaddedIsWithin(r, d);
    WithinTransitive(r, d, s);
    WithinTransitive(r, s, reply);
    r
  }

  lemma CleanResponseSteps(reply: string)
    ensures CleanResponse(reply) == Strip(DropFences(Strip(reply)))
  {
  }

  lemma DropJsonFence(body: string)
    ensures DropFences(JsonFence + "\n" + body + "\n" + Fence) == "\n" + body + "\n"
  {
    var reply := JsonFence + "\n" + body + "\n" + Fence;
    assert StartsWith(reply, JsonFence) by { assert reply[..7] == JsonFence; }
    var a := reply[7..];
    assert a == "\n" + body + "\n" + Fence;
    assert !StartsWith(a, Fence) by { assert a[0] == '\n'; }
    assert EndsWith(a, Fence) by { assert a[|a| - 3..] == Fence; }
    assert a[..|a| - 3] == "\n" + body + "\n";
  }

  lemma DropPlainFence(body: string)
    ensures DropFences(Fence + "\n" + body + "\n" + Fence) == "\n" + body + "\n"
  {
    var reply := Fence + "\n" + body + "\n" + Fence;
    assert !StartsWith(reply, JsonFence) by { assert reply[3] == '\n'; }
    assert StartsWith(reply, Fence) by { assert reply[..3] == Fence; }
    var a := reply[3..];
    assert a == "\n" + body + "\n" + Fence;
    assert EndsWith(a, Fence) by { assert a[|a| - 3..] == Fence; }
    assert a[..|a| - 3] == "\n" + body + "\n";
  }

  /** A reply that opens and closes with a backtick has no surrounding
      whitespace to strip. */
  lemma BacktickedIsTrimmed(reply: string)
    requires |reply| > 0 && reply[0] == '`' && reply[|reply| - 1] == '`'
    ensures Strip(reply) == reply
  {
    StripTrimmed(reply);
  }

  lemma StripNewlines(body: string)
    requires Trimmed(body)
    ensures Strip("\n" + body + "\n") == body
  {
    StripPadded("\n", body, "\n");
  }

  /** A reply fenced as a JSON code block gives back exactly its body. */
  lemma FencedJsonRoundTrip(body: string)
    requires Trimmed(body)
    ensures CleanResponse(JsonFence + "\n" + body + "\n" + Fence) == body
  {
    var reply := JsonFence + "\n" + body + "\n" + Fence;
    BacktickedIsTrimmed(reply);
    DropJsonFence(body);
    StripNewlines(body);
    CleanResponseSteps(reply);
  }

  /** So does a reply fenced as a plain code block. */
  lemma FencedRoundTrip(body: string)
    requires Trimmed(body)
    ensures CleanResponse(Fence + "\n" + body + "\n" + Fence) == body
  {
    var reply := Fence + "\n" + body + "\n" + Fence;
    BacktickedIsTrimmed(reply);
    DropPlainFence(body);
    StripNewlines(body);
    CleanResponseSteps(reply);
  }

  /** An unfenced reply is only stripped. */
  lemma UnfencedIsStripped(pre: string, body: string, post: string)
    requires AllSpace(pre) && AllSpace(post) && Trimmed(body)
    requires !StartsWith(body, Fence) && !EndsWith(body, Fence)
    ensures CleanResponse(pre + body + post) == body
  {
    StripPadded(pre, body, post);
    StartsWithLonger(body, JsonFence, Fence);
    StripTrimmed(body);
  }
}

=== FILE: stop_panel.dfy ===
/** The stop panel of the line-oriented compiler (`create_stop_table` in
    app.py): the buffered lines of one stop become a column of text
    elements, and an image looked up by destination and place name goes
    beside it. */
module StopPanel {
  import opened Basics
  import opened Text
  import opened Story

  const StopMarker := "STOP:"
  const BestTimeMarker := "BEST TIME:"
  const LogisticsMarker := "LOGISTICS:"
  const FoodMarker := "FOOD:"

  /** The image lookup: a query in, image bytes or nothing out. Every failure
      of the service is already folded into `None`. */
  type ImageOracle = string -> Option<Bytes>

  /** The place a `STOP:` line names: every "STOP:" removed, then stripped.
      For a line with no second "STOP:" that is the rest of the line,
      stripped. */
  function PlaceNameOf(line: string): (r: string)
    ensures Trimmed(r)
    ensures StartsWith(line, StopMarker) && !Contains(line[|StopMarker|..], StopMarker)
            ==> r == Strip(line[|StopMarker|..])
  {
    if StartsWith(line, StopMarker) && !Contains(line[|StopMarker|..], StopMarker) then
      ReplaceOnlyLeading(line, StopMarker, "");
      assert "" + line[|StopMarker|..] == line[|StopMarker|..];
      Strip(Replace(line, StopMarker, ""))
    else
      Strip(Replace(line, StopMarker, ""))
  }

  /** The text elements one buffered line contributes to the panel. The
      prefixes are tested in the order STOP:, BEST TIME:, LOGISTICS:, FOOD:,
      and a line with none of them is printed as it is. */
  function LineElements(line: string): (r: seq<Block>)
    ensures |r| == (if StartsWith(line, FoodMarker) then 2 else 1)
    ensures StartsWith(line, StopMarker) <==> r == [Field(Place, PlaceNameOf(line))]
    ensures StartsWith(line, BestTimeMarker) ==> r == [Field(BestTime, Replace(line, BestTimeMarker, ""))]
    ensures StartsWith(line, LogisticsMarker) ==> r == [Field(Logistics, Replace(line, LogisticsMarker, ""))]
    ensures StartsWith(line, FoodMarker) ==> r == [Spacer(5.0), Field(NearbyEats, "")]
    ensures (&& !StartsWith(line, StopMarker) && !StartsWith(line, BestTimeMarker)
             && !StartsWith(line, LogisticsMarker) && !StartsWith(line, FoodMarker))
            ==> r == [Para(BodyStyle, line)]
  {
    assert StartsWith(line, StopMarker) ==> line[0] == line[..|StopMarker|][0] == 'S';
    assert StartsWith(line, BestTimeMarker) ==> line[0] == line[..|BestTimeMarker|][0] == 'B';
    assert StartsWith(line, LogisticsMarker) ==> line[0] == line[..|LogisticsMarker|][0] == 'L';
    assert StartsWith(line, FoodMarker) ==> line[0] == line[..|FoodMarker|][0] == 'F';
    if StartsWith(line, StopMarker) then [Field(Place, PlaceNameOf(line))]
    else if StartsWith(line, BestTimeMarker) then [Field(BestTime, Replace(line, BestTimeMarker, ""))]
    else if StartsWith(line, LogisticsMarker) then [Field(Logistics, Replace(line, LogisticsMarker, ""))]
    else if StartsWith(line, FoodMarker) then [Spacer(5.0), Field(NearbyEats, "")]
    else [Para(BodyStyle, line)]
  }

  /** How many lines open a food list. */
  function CountFood(lines: seq<string>): (n: nat)
    ensures n <= |lines|
  {
    if lines == [] then 0
    else (if StartsWith(lines[0], FoodMarker) then 1 else 0) + CountFood(lines[1..])
  }

  /** The panel's text column: each buffered line's elements, in order. */
  function Column(lines: seq<string>): seq<Block>
  {
    FlatMap(LineElements, lines)
  }

  /** The column has one element per buffered line plus one more for every
      FOOD: line. */
  lemma {:induction false} ColumnLength(lines: seq<string>)
    ensures |Column(lines)| == |lines| + CountFood(lines)
    decreases |lines|
  {
    if lines != [] {
      ColumnLength(lines[1..]);
      assert Column(lines) == LineElements(lines[0]) + Column(lines[1..]);
    }
  }

  /** Building the column line by line keeps the lines' order. */
  lemma ColumnAppend(a: seq<string>, b: seq<string>)
    ensures Column(a + b) == Column(a) + Column(b)
  {
    FlatMapAppend(LineElements, a, b);
  }

  /** The place the loop over the buffer remembers: the name from the last
      line that starts with STOP:, or "" when there is none. */
  function PlaceName(lines: seq<string>): string
  {
    if lines == [] then ""
    else if StartsWith(lines[|lines| - 1], StopMarker) then PlaceNameOf(lines[|lines| - 1])
    else PlaceName(lines[..|lines| - 1])
  }

  /** A stop buffer as the compiler keeps it: empty, or one STOP: line
      followed only by lines that do not start with STOP:. */
  predicate StopBuffer(lines: seq<string>) {
    lines == [] ||
    (&& StartsWith(lines[0], StopMarker)
     && forall k :: 1 <= k < |lines| ==> !StartsWith(lines[k], StopMarker))
  }

  /** In a well-formed buffer the panel heading and the image query name the
      same place: the one on the buffer's first line. */
  lemma {:induction false} PanelNamesItsStop(lines: seq<string>)
    requires StopBuffer(lines) && lines != []
    ensures PlaceName(lines) == PlaceNameOf(lines[0])
    ensures Column(lines)[0] == Field(Place, PlaceName(lines))
    decreases |lines|
  {
    if |lines| > 1 {
      var init := lines[..|lines| - 1];
      assert init[0] == lines[0];
      assert forall k :: 1 <= k < |init| ==> init[k] == lines[k];
      PanelNamesItsStop(init);
    }
  }

  /** The query sent to the image service: destination, a space, the place.
      For a buffer as the compiler keeps it, the place is the one its first
      line names. */
  function ImageQuery(destination: string, lines: seq<string>): (r: string)
    ensures lines == [] ==> r == destination + " "
    ensures StopBuffer(lines) && lines != [] ==> r == destination + " " + PlaceNameOf(lines[0])
  {
    if StopBuffer(lines) && lines != [] then
      PanelNamesItsStop(lines);
      destination + " " + PlaceName(lines)
    else
      destination + " " + PlaceName(lines)
  }

  /** Flushing a buffer: the panel kept together on one page, then a 15-point
      spacer. The column has one element per line and one more per FOOD:
      line; for a buffer as the compiler keeps it, the panel opens with the
      place on the first line and its image is the one found for that place. */
  function Flush(destination: string, fetch: ImageOracle, lines: seq<string>): (r: seq<Block>)
    ensures |r| == 2 && r[0].Panel? && r[1] == Spacer(15.0)
    ensures r[0].column == Column(lines) && r[0].image == fetch(ImageQuery(destination, lines))
    ensures |r[0].column| == |lines| + CountFood(lines)
    ensures StopBuffer(lines) && lines != [] ==>
              && r[0].column != []
              && r[0].column[0] == Field(Place, PlaceNameOf(lines[0]))
              && r[0].image == fetch(destination + " " + PlaceNameOf(lines[0]))
  {
    ColumnLength(lines);
    if StopBuffer(lines) && lines != [] then
      PanelNamesItsStop(lines);
      [Panel(Column(lines), fetch(ImageQuery(destination, lines))), Spacer(15.0)]
    else
      [Panel(Column(lines), fetch(ImageQuery(destination, lines))), Spacer(15.0)]
  }

  /** A failed image lookup changes nothing but the image column. */
  lemma FlushImageIndependent(destination: string, f: ImageOracle, g: ImageOracle, lines: seq<string>)
    ensures EraseImages(Flush(destination, f, lines)) == EraseImages(Flush(destination, g, lines))
    ensures |Flush(destination, f, lines)| == |Flush(destination, g, lines)|
  {
    var a := Flush(destination, f, lines);
    var b := Flush(destination, g, lines);
    ErasedPanelPair(a);
    ErasedPanelPair(b);
  }

  lemma ErasedPanelPair(bs: seq<Block>)
    requires |bs| == 2 && bs[0].Panel? && !bs[1].Panel?
    ensures EraseImages(bs) == [Panel(bs[0].column, None), bs[1]]
  {
    assert EraseImages(bs)[0] == EraseImage(bs[0]) && EraseImages(bs)[1] == EraseImage(bs[1]);
  }
}

=== FILE: story.dfy ===
/** The document both programs build: an ordered "story" of ReportLab
    flowables, kept as values so that their identity and order can be
    stated. Fonts, colours, column widths and page geometry are not part of
    a block. */
module Story {
  import opened Basics

  /** The paragraph styles the programs define (title, section header, day
      heading, body text). */
  datatype Style = TitleStyle | HeaderStyle | DayStyle | BodyStyle

  /** The bold captions that prefix labelled paragraphs. */
  datatype Label =
    | Place          // the stop's name, bold
    | BestTime
    | Logistics
    | NearbyEats     // the caption printed for a FOOD: line
    | Description
    | GettingThere
    | VegOption
    | NonVegOption
    | MapsSearch

  /** One row of a two-column table. */
  datatype Row = Row(left: string, right: string)

  datatype Block =
    | Para(style: Style, text: string)
    | Field(caption: Label, value: string)
    | Rule                                  // the horizontal line under a day heading
    | Spacer(height: real)                  // vertical space, in points
    | Table(rows: seq<Row>)
    | Panel(column: seq<Block>, image: Option<Bytes>)  // a [text | image] row kept on one page
    | Picture(bytes: Bytes)
    | PageBreak

  /** Points per inch. */
  const Inch: real := 72.0

  function CountPageBreaks(bs: seq<Block>): (n: nat)
    ensures n <= |bs|
  {
    if bs == [] then 0
    else (if bs[0].PageBreak? then 1 else 0) + CountPageBreaks(bs[1..])
  }

  lemma {:induction false} CountPageBreaksAppend(a: seq<Block>, b: seq<Block>)
    ensures CountPageBreaks(a + b) == CountPageBreaks(a) + CountPageBreaks(b)
    decreases |a|
  {
    if a == [] {
      assert a + b == b;
    } else {
      assert (a + b)[1..] == a[1..] + b;
      CountPageBreaksAppend(a[1..], b);
    }
  }

  /** A story with no page break counts none. */
  lemma {:induction false} CountPageBreaksNone(bs: seq<Block>)
    requires forall k :: 0 <= k < |bs| ==> !bs[k].PageBreak?
    ensures CountPageBreaks(bs) == 0
    decreases |bs|
  {
    if bs != [] {
      CountPageBreaksNone(bs[1..]);
    }
  }

  /** The texts of the paragraphs in style `st`, in story order. */
  function Texts(st: Style, bs: seq<Block>): (r: seq<string>)
    ensures |r| <= |bs|
  {
    if bs == [] then []
    else (if bs[0].Para? && bs[0].style == st then [bs[0].text] else []) + Texts(st, bs[1..])
  }

  lemma {:induction false} TextsAppend(st: Style, a: seq<Block>, b: seq<Block>)
    ensures Texts(st, a + b) == Texts(st, a) + Texts(st, b)
    decreases |a|
  {
    if a == [] {
      assert a + b == b;
    } else {
      assert (a + b)[1..] == a[1..] + b;
      TextsAppend(st, a[1..], b);
    }
  }

  /** A story with no paragraph in style `st` has no texts in that style. */
  lemma {:induction false} TextsNone(st: Style, bs: seq<Block>)
    requires forall k :: 0 <= k < |bs| ==> !(bs[k].Para? && bs[k].style == st)
    ensures Texts(st, bs) == []
    decreases |bs|
  {
    if bs != [] {
      TextsNone(st, bs[1..]);
    }
  }

  /** The same block with a panel's image column emptied. */
  function EraseImage(b: Block): Block {
    if b.Panel? then Panel(b.column, None) else b
  }

  /** The story as it looks when no image lookup succeeds. */
  function EraseImages(bs: seq<Block>): (r: seq<Block>)
    ensures |r| == |bs|
    ensures forall k :: 0 <= k < |bs| ==> r[k] == EraseImage(bs[k])
  {
    seq(|bs|, k requires 0 <= k < |bs| => EraseImage(bs[k]))
  }

  lemma EraseImagesAppend(a: seq<Block>, b: seq<Block>)
    ensures EraseImages(a + b) == EraseImages(a) + EraseImages(b)
  {
  }
}

=== FILE: text.dfy ===
/** The Python string operations both programs rely on: `strip`, `in`,
    `startswith`/`endswith`, `split` and `replace`, on strings as sequences of
    code points. */
module Text {
  import opened Basics

  /** Python's `str.isspace` for a single code point. */
  predicate IsSpace(c: char) {
    || ('\t' <= c <= '\r')
    || ('\U{1C}' <= c <= '\U{1F}')
    || c == ' '
    || c == '\U{85}'
    || c == '\U{A0}'
    || c == '\U{1680}'
    || ('\U{2000}' <= c <= '\U{200A}')
    || c == '\U{2028}'
    || c == '\U{2029}'
    || c == '\U{202F}'
    || c == '\U{205F}'
    || c == '\U{3000}'
  }

  predicate AllSpace(s: string) {
    forall k :: 0 <= k < |s| ==> IsSpace(s[k])
  }

  /** Neither end of `s` is whitespace: what `strip` leaves behind. */
  predicate Trimmed(s: string) {
    s == [] || (!IsSpace(s[0]) && !IsSpace(s[|s| - 1]))
  }

  /** `pat` occurs in `s` starting at position `k`. */
  predicate OccursAt(s: string, pat: string, k: int) {
    0 <= k <= |s| - |pat| && s[k..k + |pat|] == pat
  }

  /** `r` occurs in `s` with nothing but whitespace on either side of it. */
  ghost predicate PaddedIn(r: string, s: string) {
    exists i :: OccursAt(s, r, i) && AllSpace(s[..i]) && AllSpace(s[i + |r|..])
  }

  /** `r` is a contiguous piece of `s`. */
  ghost predicate Within(r: string, s: string) {
    exists i :: OccursAt(s, r, i)
  }

  /** Python's `str.lstrip()`. */
  function TrimStart(s: string): (r: string)
    ensures |r| <= |s| && r == s[|s| - |r|..]
    ensures forall k :: 0 <= k < |s| - |r| ==> IsSpace(s[k])
    ensures r == [] || !IsSpace(r[0])
  {
    if s != [] && IsSpace(s[0]) then TrimStart(s[1..]) else s
  }

  /** Python's `str.rstrip()`. */
  function TrimEnd(s: string): (r: string)
    ensures |r| <= |s| && r == s[..|r|]
    ensures forall k :: |r| <= k < |s| ==> IsSpace(s[k])
    ensures r == [] || !IsSpace(r[|r| - 1])
  {
    if s != [] && IsSpace(s[|s| - 1]) then TrimEnd(s[..|s| - 1]) else s
  }

  /** Python's `str.strip()`: the text between the leading and the trailing whitespace. */
  function Strip(s: string): (r: string)
    ensures Trimmed(r)
    ensures PaddedIn(r, s)
  {
    var t := TrimStart(s);
    var r := TrimEnd(t);
    StripWitness(s, t, r);
    r
  }

  /** The piece `strip` keeps sits right after the leading whitespace. */
  lemma StripWitness(s: string, t: string, r: string)
    requires |t| <= |s| && t == s[|s| - |t|..]
    requires forall k :: 0 <= k < |s| - |t| ==> IsSpace(s[k])
    requires t == [] || !IsSpace(t[0])
    requires |r| <= |t| && r == t[..|r|]
    requires forall k :: |r| <= k < |t| ==> IsSpace(t[k])
    requires r == [] || !IsSpace(r[|r| - 1])
    ensures Trimmed(r)
    ensures PaddedIn(r, s)
  {
    var i := |s| - |t|;
    assert r != [] ==> r[0] == t[0];
    assert s[i..i + |r|] == r;
    assert s[i + |r|..] == t[|r|..];
    assert OccursAt(s, r, i) && AllSpace(s[..i]) && AllSpace(s[i + |r|..]);
  }

  lemma PaddedIsWithin(r: string, s: string)
    requires PaddedIn(r, s)
    ensures Within(r, s)
  {
    var i :| OccursAt(s, r, i) && AllSpace(s[..i]) && AllSpace(s[i + |r|..]);
    assert OccursAt(s, r, i);
  }

  lemma WithinTransitive(a: string, b: string, c: string)
    requires Within(a, b) && Within(b, c)
    ensures Within(a, c)
  {
    var i :| OccursAt(b, a, i);
    var j :| OccursAt(c, b, j);
    forall t | 0 <= t < |a|
      ensures c[j + i..j + i + |a|][t] == a[t]
    {
      assert a[t] == b[i..i + |a|][t] == b[i + t];
      assert b[i + t] == c[j..j + |b|][i + t];
    }
    assert OccursAt(c, a, j + i);
  }

  lemma {:induction false} TrimStartPadded(a: string, t: string)
    requires AllSpace(a)
    requires t == [] || !IsSpace(t[0])
    ensures TrimStart(a + t) == t
    decreases |a|
  {
    if a == [] {
      assert a + t == t;
    } else {
      assert (a + t)[1..] == a[1..] + t;
      TrimStartPadded(a[1..], t);
    }
  }

  lemma {:induction false} TrimEndPadded(t: string, b: string)
    requires AllSpace(b)
    requires t == [] || !IsSpace(t[|t| - 1])
    ensures TrimEnd(t + b) == t
    decreases |b|
  {
    if b == [] {
      assert t + b == t;
    } else {
      assert (t + b)[..|t + b| - 1] == t + b[..|b| - 1];
      TrimEndPadded(t, b[..|b| - 1]);
    }
  }

  /** `strip` is determined by its two promises: a trimmed middle padded by
      whitespace on both sides is exactly what it returns. */
  lemma StripPadded(a: string, t: string, b: string)
    requires AllSpace(a) && AllSpace(b) && Trimmed(t)
    ensures Strip(a + t + b) == t
  {
    if t == [] {
      assert a + t + b == (a + b) + t;
      TrimStartPadded(a + b, t);
    } else {
      assert a + t + b == a + (t + b);
      TrimStartPadded(a, t + b);
      TrimEndPadded(t, b);
    }
  }

  /** A string that is already trimmed is left unchanged by `strip`. */
  lemma StripTrimmed(t: string)
    requires Trimmed(t)
    ensures Strip(t) == t
  {
    assert [] + t + [] == t;
    StripPadded([], t, []);
  }

  /** `strip` leaves nothing exactly when the string is all whitespace. */
  lemma StripEmptyIffBlank(s: string)
    ensures Strip(s) == [] <==> AllSpace(s)
  {
    if AllSpace(s) {
      StripPadded([], [], s);
      assert [] + [] + s == s;
    }
    if Strip(s) == [] {
      var i :| OccursAt(s, [], i) && AllSpace(s[..i]) && AllSpace(s[i..]);
      forall k | 0 <= k < |s|
        ensures IsSpace(s[k])
      {
        if k < i {
          assert s[k] == s[..i][k];
        } else {
          assert s[k] == s[i..][k - i];
        }
      }
    }
  }

  /** Python's `s.startswith(p)`. */
  predicate StartsWith(s: string, p: string) {
    |p| <= |s| && s[..|p|] == p
  }

  /** Python's `s.endswith(p)`. */
  predicate EndsWith(s: string, p: string) {
    |p| <= |s| && s[|s| - |p|..] == p
  }

  /** Python's `s.find(pat)`: the leftmost position where `pat` occurs, if any. */
  function Find(s: string, pat: string): (r: Option<nat>)
    ensures r.Some? ==> OccursAt(s, pat, r.value) && forall k :: 0 <= k < r.value ==> !OccursAt(s, pat, k)
    ensures r.None? ==> forall k :: !OccursAt(s, pat, k)
    decreases |s|
  {
    if |s| < |pat| then None
    else if s[..|pat|] == pat then Some(0)
    else
      OccursShift(s, pat);
      match Find(s[1..], pat)
      case None => None
      case Some(k) => Some(k + 1)
  }

  /** Occurrences in `s` past its first character are the occurrences in `s[1..]`, shifted by one. */
  lemma OccursShift(s: string, pat: string)
    requires s != []
    ensures forall m :: 1 <= m ==> (OccursAt(s, pat, m) <==> OccursAt(s[1..], pat, m - 1))
  {
    forall m | 1 <= m
      ensures OccursAt(s, pat, m) <==> OccursAt(s[1..], pat, m - 1)
    {
      if m <= |s| - |pat| {
        var here, there := s[m..m + |pat|], s[1..][m - 1..m - 1 + |pat|];
        assert forall t :: 0 <= t < |pat| ==> here[t] == there[t];
        assert here == there;
      }
    }
  }

  /** Python's `pat in s`. */
  predicate Contains(s: string, pat: string) {
    Find(s, pat).Some?
  }

  /** A pattern with a character the string lacks does not occur in it. */
  lemma MissingCharNotContained(s: string, pat: string, c: char)
    requires c in pat && c !in s
    ensures !Contains(s, pat)
  {
    var j :| 0 <= j < |pat| && pat[j] == c;
    forall k | 0 <= k <= |s| - |pat|
      ensures !OccursAt(s, pat, k)
    {
      assert s[k..k + |pat|][j] == s[k + j];
    }
  }

  /** The first occurrence of a character is found right after the longest
      prefix that lacks it. */
  lemma FindFirstChar(a: string, c: char, b: string)
    requires c !in a
    ensures Find(a + [c] + b, [c]) == Some(|a|)
  {
    var s := a + [c] + b;
    assert s[|a|..|a| + 1] == [c];
    assert OccursAt(s, [c], |a|);
    forall k | 0 <= k < |a|
      ensures !OccursAt(s, [c], k)
    {
      assert s[k..k + 1] == [a[k]];
    }
  }

  /** A string that starts with `p` starts with every prefix of `p`. */
  lemma StartsWithLonger(s: string, p: string, q: string)
    requires q <= p
    ensures StartsWith(s, p) ==> StartsWith(s, q)
  {
    assert StartsWith(s, p) ==> s[..|q|] == s[..|p|][..|q|];
  }

  /** A prefix occurrence is an occurrence. */
  lemma StartsWithContains(s: string, p: string)
    requires StartsWith(s, p)
    ensures Contains(s, p)
  {
    assert OccursAt(s, p, 0);
  }

  /** Python's `sep.join(parts)`. */
  function Join(parts: seq<string>, sep: string): string
  {
    if |parts| == 0 then ""
    else if |parts| == 1 then parts[0]
    else parts[0] + sep + Join(parts[1..], sep)
  }

  /** Python's `s.split(sep)` for a non-empty separator: the pieces between the
      occurrences of `sep`, found left to right. */
  function Split(s: string, sep: string): (parts: seq<string>)
    requires sep != []
    ensures |parts| >= 1
    ensures Join(parts, sep) == s
    ensures forall k :: 0 <= k < |parts| ==> !Contains(parts[k], sep)
    decreases |s|
  {
    match Find(s, sep)
    case None => [s]
    case Some(i) =>
      var head := s[..i];
      var rest := Split(s[i + |sep|..], sep);
      assert forall k :: OccursAt(head, sep, k) ==> OccursAt(s, sep, k);
      assert ([head] + rest)[1..] == rest;
      assert s == head + sep + s[i + |sep|..];
      [head] + rest
  }

  /** Python's `s.replace(pat, rep)` for a non-empty pattern: every
      non-overlapping occurrence, found left to right, is replaced. */
  function Replace(s: string, pat: string, rep: string): (r: string)
    requires pat != []
    ensures !Contains(s, pat) ==> r == s
  {
    Join(Split(s, pat), rep)
  }

  /** The first occurrence of the pattern is replaced, and replacing starts
      over right after it. With the no-occurrence clause of `Replace` this
      fixes the result for every input. */
  lemma ReplaceFirst(s: string, pat: string, rep: string, i: nat)
    requires pat != [] && Find(s, pat) == Some(i)
    ensures Replace(s, pat, rep) == s[..i] + rep + Replace(s[i + |pat|..], pat, rep)
  {
    var rest := Split(s[i + |pat|..], pat);
    assert Split(s, pat) == [s[..i]] + rest;
    assert ([s[..i]] + rest)[1..] == rest;
  }

  /** A leading occurrence is the first one. */
  lemma ReplaceLeading(s: string, pat: string, rep: string)
    requires pat != [] && StartsWith(s, pat)
    ensures Replace(s, pat, rep) == rep + Replace(s[|pat|..], pat, rep)
  {
    assert OccursAt(s, pat, 0);
    ReplaceFirst(s, pat, rep, 0);
    assert s[..0] == [];
  }

  /** A line that opens with the pattern and has no other occurrence of it
      loses exactly that opening. */
  lemma ReplaceOnlyLeading(s: string, pat: string, rep: string)
    requires pat != [] && StartsWith(s, pat) && !Contains(s[|pat|..], pat)
    ensures Replace(s, pat, rep) == rep + s[|pat|..]
  {
    ReplaceLeading(s, pat, rep);
  }

  /** Replacing one character by another rewrites every occurrence of it in
      place and keeps every other character. */
  lemma {:induction false} ReplaceChar(s: string, c: char, d: char)
    ensures |Replace(s, [c], [d])| == |s|
    ensures forall k :: 0 <= k < |s| ==> Replace(s, [c], [d])[k] == (if s[k] == c then d else s[k])
    decreases |s|
  {
    match Find(s, [c])
    case None =>
      forall k | 0 <= k < |s|
        ensures s[k] != c
      {
        assert s[k..k + 1] == [s[k]];
        assert !OccursAt(s, [c], k);
      }
    case Some(i) =>
      var rest := s[i + 1..];
      var parts := Split(rest, [c]);
      assert Split(s, [c]) == [s[..i]] + parts;
      assert ([s[..i]] + parts)[1..] == parts;
      ReplaceChar(rest, c, d);
      var r := Replace(s, [c], [d]);
      assert r == s[..i] + [d] + Replace(rest, [c], [d]);
      forall k | 0 <= k < |s|
        ensures r[k] == (if s[k] == c then d else s[k])
      {
        if k < i {
          assert s[k..k + 1] == [s[k]];
          assert !OccursAt(s, [c], k);
          assert r[k] == s[..i][k];
        } else if k == i {
          assert s[i..i + 1] == [c];
        } else {
          assert r[k] == Replace(rest, [c], [d])[k - i - 1];
          assert s[k] == rest[k - i - 1];
        }
      }
  }
}
